=== FILE: README.md ===
# Sight-reader practice model

A Dafny model of the logic of the sight-reading trainer: the page script `src/sightreader.jsx`
and the component `src/components/SightreaderApp.jsx`. The trainer shows a piece written in
ABC notation and plays it along a timeline. Meanwhile it samples the microphone, compares the
heard pitch with the note the timeline is at, and scores the piece as a percentage. It can also
step through a playlist of pieces and move on by itself when the score reaches the player's
historical mean.

Modules, in dependency order:

| module | file | what it models |
|---|---|---|
| `Wrappers` | wrappers.dfy | `Option` |
| `Text` | text.dfy | JavaScript string operations the code relies on: `trim` (with JavaScript's white-space set, U+FEFF included), `split`/`join` on one character, decimal printing and `parseInt` of digit runs |
| `Preprocess` | preprocess.dfy | `preprocess_abc_data`, and the trimming of a fetched file in `load_abc_file` |
| `Tempo` | tempo.dfy | the tempo rule of `load_abc`: the regular expressions `/Q:\s*(\d+)/i` (leftmost match) and `/Q:\s*(\d+\n)/i` (the line cut out), the tempo override and the fallback to 60; milliseconds per beat and per measure |
| `Notes` | notes.dfy | `midi_number_to_octave`, `midi_number_to_scale` and `midi_number_to_string`, with JavaScript's truncating `%` and `parseInt(n / 12)` |
| `Scoring` | scoring.dfy | the score `Math.round(correct / count * 100)`, the tally display, the "Scored" report and the auto-continue test |
| `Playlists` | playlist.dfy | `clamp`, `clear_playlist`, `goto_playlist_index`, `increment_playlist`, `decrement_playlist` |
| `Session` | session.dfy | the practice session as a state machine over explicit actions: sampler ticks (`get_pitch`), checker ticks (`check_note`), timeline events (`event_callback`), `start`, `stop`, `reset`, `update_playlist`, the start, tune and reset buttons, the playlist keys, the file, tempo and microphone selects, the ABC text box and the file and playlist loads |
| `SightreaderApp` | app.dfy | the component's own tempo reading in `loadABC`, and `handleStart`/`handleStop` with the delayed start |

Timers, the microphone, the network and the renderer become parameters or actions. The detected
pitch of a sampler tick is a given integer, together with the tick's volume. The historical mean
fetched from the server is an `Option<real>`. Whether a tune is rendered and whether a file is
selected are booleans passed with the button actions. A completed file or playlist request is an
action carrying its result.

### Behaviour modelled as written

- The sampler hears a note only when the volume is strictly above 0.075 (`volume > MIN_VOLUME`).
- The strict checking policy counts rests: when a rest is expected and silence is heard, that
  counts as a hit.
- `start` zeroes the counters but not the two latches of the ignore-duration policy. Hits can
  therefore exceed checks, and a piece can score Infinity (`Session.HitsCanExceedChecks`). The
  trace assumes that after the restart a checker tick comes before the new timeline's first
  event. The checker's first tick is due 100 ms after `start`, so this holds when the piece's
  first event is later than that.
- `stop` does not cancel a running countdown, whatever its comment says. A countdown begun and
  then stopped still starts the piece (`Session.StopDoesNotCancelCountdown`). The component's
  delayed start behaves the same way (`SightreaderApp.StopBeforeDelayedStart`).
- At the end of a piece the status "Scored N." is overwritten at once by "Stopped.". The report
  survives only when the microphone had already been switched off with the tune button
  (`Session.FinishStatus`).
- A tempo directive `Q:0` gives tempo 60 on the page but 0 in the component
  (`SightreaderApp.ZeroTempoDiffers`).
- The byte-order-mark check in `load_abc_file` can never fire. JavaScript's `trim` already removes
  U+FEFF (`Preprocess.PrepareFileText`).
- On an empty playlist, clamping into [0, -1] moves the index from 0 to -1 and back
  (`Playlists.EmptyPlaylistFlips`).
- A negative note number that is not a multiple of 12 prints as "NaN": the scale lookup with a
  negative index yields `undefined`, and adding the octave to `undefined` gives NaN.

## Model

| member | source | states |
|---|---|---|
| Text.Trim | src/sightreader.jsx:230 | the result is a slice of the input with only white space cut from either end, and it neither starts nor ends with white space |
| Text.JoinSplit | src/sightreader.jsx:228 | joining the pieces of a split with the separator gives the text back |
| Text.Split | src/sightreader.jsx:228 | `split` yields at least one piece, and no piece holds the separator |
| Text.SplitJoin | src/sightreader.jsx:249 | splitting a join of separator-free lines gives the lines back |
| Text.NatToDecimal | src/sightreader.jsx:139-141 | the printed form of a number is a digit string without leading zeros whose value is the number |
| Text.IntToDecimalRoundTrip | src/sightreader.jsx:102 | `parseInt` reads every printed integer back as itself |
| Preprocess.TrimAll | src/sightreader.jsx:229-230 | each line is replaced by its trimmed form, one for one |
| Preprocess.Classify | src/sightreader.jsx:231-246 | a kept line is non-empty and not a `%` comment; a line is a header (kept or ignored) exactly when it is a field line; it is an ignored header exactly when its key, upper-cased, is one of the ignored letters |
| Preprocess.SelectMembers | src/sightreader.jsx:229-246 | a group holds only input lines of its kind, and holds each such line as many times as it occurs in the input |
| Preprocess.Positions | src/sightreader.jsx:229-246 | the positions the loop pushes from are increasing and are exactly the positions of the lines of the group's kind |
| Preprocess.SelectAtPositions | src/sightreader.jsx:229-246 | a group is the input lines at those positions, one for one and in input order |
| Preprocess.Preprocessed | src/sightreader.jsx:249 | the output's lines are the kept headers followed by the note lines, one blank line standing for an empty group |
| Preprocess.PreprocessAbcData | src/sightreader.jsx:223-250 | the loop with its two lists computes the same text as the functional definition |
| Preprocess.GroupTrimmed | src/sightreader.jsx:230-244 | every grouped line is trimmed and classified as its group says |
| Preprocess.GroupLine | src/sightreader.jsx:231-244 | a grouped line is a trimmed input line that is non-empty, not a `%` comment and not an ignored header |
| Preprocess.PreprocessedLines | src/sightreader.jsx:223-250 | every output line is blank or a kept, trimmed input line |
| Preprocess.RegroupOutput | src/sightreader.jsx:236-246 | re-reading the output finds the same header and note groups |
| Preprocess.PreprocessIdempotent | src/sightreader.jsx:223-250 | preprocessing its own output changes nothing |
| Preprocess.PrepareFileText | src/sightreader.jsx:309-312 | a fetched text is just trimmed: the byte-order-mark branch is unreachable |
| Tempo.FindTempoIsLeftmostMatch | src/sightreader.jsx:260 | the scan finds nothing exactly when `/Q:\s*(\d+)/i` matches nowhere, and otherwise finds its leftmost match |
| Tempo.FindTempo | src/sightreader.jsx:260 | a found match is "Q:" followed by white space and a maximal, non-empty digit run |
| Tempo.MatchValue | src/sightreader.jsx:262 | the tempo read from a match is what `parseInt` gives for its digits |
| Tempo.StripTempoLine | src/sightreader.jsx:263 | the replacement either leaves the text alone or removes at least the four characters of a shortest directive line |
| Tempo.StripTempoLineIsReplace | src/sightreader.jsx:263 | the text changes exactly when `/Q:\s*(\d+\n)/i` matches, and then loses the span of its leftmost match |
| Tempo.LoadAbcTempo | src/sightreader.jsx:253-266 | an override wins and leaves the text alone; otherwise the first `/Q:\s*(\d+)/i` match gives the tempo, and the leftmost `/Q:\s*(\d+\n)/i` match is cut out, which can be a later directive than the one read (`"Q:90 x\nQ:120\n"` plays at 90 and loses `"Q:120\n"`); a missing or zero tempo gives 60; the tempo is never 0 |
| Tempo.NoMatchKeepsText | src/sightreader.jsx:259-266 | with no directive anywhere, the text is unchanged and the tempo is 60 |
| Tempo.NoDirectiveDefaultTempo | src/sightreader.jsx:259-266 | a text with no letter Q loads unchanged at tempo 60 |
| Tempo.DirectiveSetsTempo | src/sightreader.jsx:259-266 | a `Q:` line with a non-zero value and no Q before it sets the tempo to that value and is removed from the text |
| Tempo.MsPerBeat | src/components/SightreaderApp.jsx:34 | a beat lasts 60000/qpm milliseconds (the page's `milliseconds_per_beat` at src/sightreader.jsx:108-110 is the same formula); a tempo of 0 gives Infinity |
| Tempo.MsPerMeasure | src/components/SightreaderApp.jsx:35-37 | a measure lasts beatsPerMeasure beats (as the page's `milliseconds_per_measure` at src/sightreader.jsx:111-113); tempo 0 gives Infinity, or NaN for zero beats |
| Tempo.PageTimingFinite | src/sightreader.jsx:266-287 | the page's loaded tempo is never 0, so the beat and measure lengths it hands to the synth are finite |
| SightreaderApp.ZeroTempoInfiniteBeat | src/components/SightreaderApp.jsx:43-45 | in the component a "Q:0" directive makes a beat, and a measure of any positive number of beats, last Infinity milliseconds |
| Tempo.MeasureScalesInversely | src/sightreader.jsx:111-113 | multiplying the tempo by k divides the measure's duration by k |
| Notes.TruncatedDivision | src/sightreader.jsx:95-100 | the truncating octave and remainder divide the number by 12, the remainder taking its sign, and agree with Euclidean division on non-negative numbers |
| Notes.PitchIndex | src/sightreader.jsx:98-100 | `number % 12` lies strictly between -12 and 12 and has the sign of the number |
| Notes.Octave | src/sightreader.jsx:95-97 | the octave is at least -1 for a non-negative number and at most -1 for a non-positive one |
| Notes.NoteName | src/sightreader.jsx:101-103 | the name is "-" exactly for 0, and "NaN" exactly for the negative numbers that are not multiples of 12 |
| Notes.NoteNamePositive | src/sightreader.jsx:95-103 | a positive number is named by the scale entry at n mod 12 and the octave n div 12 - 1 |
| Notes.NoteNameExamples | src/sightreader.jsx:95-103 | 60 is "C4", 61 is "C#4" and 69 is "A4" |
| Notes.NoteNameRoundTrip | src/sightreader.jsx:95-103 | every name other than "-" and "NaN" reads back as the number it names, so no two notes share a name |
| Scoring.ScoreOf | src/sightreader.jsx:519 | with checks, the score is within one half of 100·correct/count, rounding halves up; with none it is NaN or, given hits, Infinity |
| Scoring.ScoreIsNearest | src/sightreader.jsx:519 | the score is the only integer within one half of the exact percentage |
| Scoring.ScoreWithinPercent | src/sightreader.jsx:519 | no more hits than checks scores between 0 and 100 |
| Scoring.ScoreMonotone | src/sightreader.jsx:519 | more hits for the same checks never lower the score |
| Scoring.ScoreText | src/sightreader.jsx:136-144 | the tally display is "-" exactly when nothing was checked |
| Scoring.ScoreTextReadsBack | src/sightreader.jsx:139-141 | the display "c/n = p%" reads back as the hits, the checks and the score |
| Scoring.ScoredMessage | src/sightreader.jsx:520 | the report starts with "Scored " and ends with "." |
| Scoring.ScoredMessageReadsBack | src/sightreader.jsx:520 | the report names the score: a percentage reads back as itself, otherwise "Infinity" or "NaN" |
| Scoring.NoTalliesNeverAdvance | src/sightreader.jsx:525-529 | a score of NaN never passes the auto-continue test |
| Scoring.ShouldAdvance | src/sightreader.jsx:525-526 | auto-continue needs the option on and a non-zero mean; NaN never passes; a percentage passes exactly when it reaches the mean |
| Scoring.HitsWithoutChecksAdvance | src/sightreader.jsx:525-529 | Infinity passes the test for every non-zero mean |
| Scoring.AdvanceMonotone | src/sightreader.jsx:519-529 | more hits for the same checks keep a passing score passing |
| Scoring.MeanEightyExample | src/sightreader.jsx:519-529 | against a mean of 80, 17 of 20 (85) advances and 14 of 20 (70) does not |
| Playlists.Clamp | src/sightreader.jsx:93 | in a proper range the result lies in the range and an in-range value is kept; it is always the value or a bound |
| Playlists.ClampNearest | src/sightreader.jsx:93 | in a proper range, clamping picks the point nearest to the value |
| Playlists.ClampIdempotent | src/sightreader.jsx:93 | in a proper range, clamping twice is clamping once |
| Playlists.Loaded | src/sightreader.jsx:339-341 | a loaded playlist holds the files and is placed at a valid index |
| Playlists.Goto | src/sightreader.jsx:382-384 | the files stay; the index is `i` when in range, else the nearer end; an empty list leaves the index at 0 or -1 |
| Playlists.Next | src/sightreader.jsx:389-395 | the next key keeps the files and a placed index, and on a non-empty list moves one on unless at the last file |
| Playlists.Prev | src/sightreader.jsx:396-402 | the previous key keeps the files and a placed index, and on a non-empty list moves one back unless at the first file |
| Playlists.NextPrevSteps | src/sightreader.jsx:389-402 | the next/previous key moves the index by exactly one, except at the last/first file, where nothing changes |
| Playlists.NextPrevInverse | src/sightreader.jsx:389-402 | away from the ends, next and previous undo each other |
| Playlists.EmptyPlaylistFlips | src/sightreader.jsx:93 | on an empty list the index flips between 0 and -1 |
| Session.SampleNote | src/sightreader.jsx:447-455 | the heard note is the detected pitch when the volume exceeds 0.075, else silence; nothing else changes |
| Session.CheckNote | src/sightreader.jsx:167-184 | strict: one check per tick, one hit iff the heard note is the expected one; ignore-duration: a check only on a note's first tick, a hit only on its first matching tick |
| Session.BeginNote | src/sightreader.jsx:504-516 | a timeline event opens both latches and expects its pitch, or 0 without one |
| Session.Stop | src/sightreader.jsx:554-571 | without the microphone on it changes nothing; otherwise microphone, sampler, checker and timeline stop, both notes become 0 and "Stopped." is reported |
| Session.StopIdempotent | src/sightreader.jsx:554-571 | a second stop changes nothing |
| Session.StartPlaying | src/sightreader.jsx:532-553 | starting zeroes the counters but keeps the latches, starts microphone, sampler, checker and timeline, reports "Playing.", and changes nothing else |
| Session.PressStart | src/sightreader.jsx:673-687 | without a tune it only reports; while the microphone is on it is a stop; otherwise it begins a countdown |
| Session.PressTune | src/sightreader.jsx:651-663 | the tune button toggles the microphone and the sampler; switching off silences the heard note, switching on keeps it; nothing else changes, so the checker, the timeline and the tally run on |
| Session.Reload | src/sightreader.jsx:403-413 | `update_playlist` zeroes both counters and counts one more call (which asks for the current file and loads nothing when the index is outside the list), changing nothing else |
| Session.Navigate | src/sightreader.jsx:382-402 | the tally is zeroed and the file reloaded exactly when the index changed; nothing but the index, the tally and the reload count changes |
| Session.ResetSession | src/sightreader.jsx:572-582 | a reset zeroes the tally, stops, and reloads; it is exactly a stop followed by `update_playlist`, so the explicit zeroing of the count is subsumed |
| Session.FinishPiece | src/sightreader.jsx:517-530 | the final event records the piece's score and leaves the session stopped; the playlist stays when the auto-continue test fails; the tally is kept when the index stays and zeroed, with a reload, when it moves; countdowns and latches are kept, and the notes and the sampler are silenced exactly when the microphone was on |
| Session.SelectFile | src/sightreader.jsx:627-644 | a file choice reports loading, empties the playlist and zeroes the tally; a choice that is neither ".abc" nor ".pls" also stops the session at once, "Stopped." replacing the report if it was recording; nothing else changes |
| Session.CustomFileSuffix | src/sightreader.jsx:632-641 | names ending in ".abc" or ".pls" are fetched; the empty name, and any name not ending in 'c' or 's', loads the text box |
| Session.Step | src/sightreader.jsx:500-531 | of all actions only the final timeline event of a running piece records a score, and it records exactly the tally's score |
| Session.LoadingStops | src/sightreader.jsx:253-256 | the text box, the tempo select with text held, the microphone select with a device and a custom file choice all stop the session as the stop button does, keeping the scores |
| Session.RunInv | src/sightreader.jsx:480-571 | from a state where the sampler runs only with the microphone on and the index is placed, every run of actions keeps both |
| Session.HeardWhileMicOff | src/sightreader.jsx:486-490 | with the microphone off, every checker tick observes the note held when it went off |
| Session.StrictWindow | src/sightreader.jsx:179-182 | between timeline events, with the microphone on or off, the strict policy adds one check per checker tick and one hit per tick that hears the expected note |
| Session.IgnoreDurationWindow | src/sightreader.jsx:170-178 | between timeline events, with the microphone on or off, the ignore-duration policy adds a check only if the note was not yet counted and a hit only if it was not yet heard and some tick hears it |
| Session.NoteWindow | src/sightreader.jsx:504-506 | after a timeline event, the ticks up to the next one add exactly one check if any checker tick occurs, and one hit exactly when some tick hears the note |
| Session.FinishAdvancesAtMostOne | src/sightreader.jsx:517-529 | on a non-empty playlist the final event moves the index by at most one, and by one exactly when the auto-continue test passes and the piece is not the last |
| Session.FinishWithoutTallyStays | src/sightreader.jsx:519-529 | a piece with no checks and no hits never moves the playlist |
| Session.FinishStatus | src/sightreader.jsx:520-523 | the "Scored" report survives only if the microphone was off; otherwise "Stopped." replaces it |
| Session.StartThenCountdown | src/sightreader.jsx:193-220 | a start press and the end of the countdown start a piece with a zeroed tally and unchanged latches |
| Session.StopDoesNotCancelCountdown | src/sightreader.jsx:554-558 | a countdown begun and stopped still starts the piece |
| Session.NavigationSteps | src/sightreader.jsx:389-413 | at either end the keys change nothing at all; inside they move by one, zero the tally and reload |
| Session.HitsCanExceedChecks | src/sightreader.jsx:544-545 | from an idle, silent session, a stop and restart leaves a hit without a check, and the piece scores Infinity, provided a checker tick (first due 100 ms after `start`) comes before the restarted timeline's first event |
| SightreaderApp.AppTempo | src/components/SightreaderApp.jsx:41-48 | with no directive the tempo is 60 and the text unchanged; with one the tempo is the first match's digits, 0 included with no fallback, and the leftmost line-feed-terminated directive is cut out |
| SightreaderApp.TempoPathsAgree | src/components/SightreaderApp.jsx:43-47 | the component and the page cut out the same text, and their tempos agree exactly when the component's is not 0 |
| SightreaderApp.AppDirectiveSetsTempo | src/components/SightreaderApp.jsx:43-47 | a `Q:` line with no Q before it sets the tempo to its value, zero included, and is removed |
| SightreaderApp.ZeroTempoDiffers | src/components/SightreaderApp.jsx:45 | `Q:0` plays at 0 in the component and at 60 on the page |
| SightreaderApp.LoadAbc | src/components/SightreaderApp.jsx:40-61 | loading sets the text and the tempo (60 without a directive, else the first match's digits), reports the load, and keeps the previous tune when rendering fails; recording, microphone, synth and pending starts are untouched |
| SightreaderApp.HandleStop | src/components/SightreaderApp.jsx:105-112 | stopping is unguarded: recording, microphone and synth go off and "Stopped." is reported, nothing else changes |
| SightreaderApp.HandleStart | src/components/SightreaderApp.jsx:81-92 | without a tune only "No valid ABC loaded." is reported; while recording it is a stop; otherwise recording starts with "Starting in 3…", one delayed start is scheduled, and nothing else changes |
| SightreaderApp.DelayedStart | src/components/SightreaderApp.jsx:93-101 | the delayed start turns on microphone and synth and reports "Playing." whatever recording says; nothing else changes |
| SightreaderApp.AppStep | src/components/SightreaderApp.jsx:81-92 | no action switches recording on without a tune held, and none drops a held tune |
| SightreaderApp.AppRunInv | src/components/SightreaderApp.jsx:81-92 | recording is only ever on with a tune held, and a held tune stays, over any run of actions |
| SightreaderApp.StartTwiceStops | src/components/SightreaderApp.jsx:86-89 | a second start press stops, while the first press's delayed start is still pending |
| SightreaderApp.HandleStopIdempotent | src/components/SightreaderApp.jsx:105-112 | stopping twice is stopping once |
| SightreaderApp.StopBeforeDelayedStart | src/components/SightreaderApp.jsx:93-101 | a stop before the delayed start does not cancel it: "Playing." is reported with recording off |

## Left out

- Rendering, the DOM, jQuery, cookies, note colouring and the keyboard handler's other keys. They are UI only.
- Audio input and pitch estimation (AudioContext, getUserMedia, the volume meter, YIN). These are
  foreign calls. A sampler tick carries its volume and the detected integer pitch.
- `noteFromPitch` and the RMS volume. These are floating-point numerics. The `parseInt`/`isNaN`
  guards around the detected pitch are therefore not modelled either.
- Timers: `setInterval`, `setTimeout`, the countdown animation and `ABCJS.TimingCallbacks`. Each
  tick, countdown end and timeline event is an action. A second `start_mic` or note checker
  started while one runs would in JavaScript leave two intervals firing. The model keeps one of
  each.
- Session.Step: has one timeline and ignores timeline events once the piece has ended. In the
  page, `start` (src/sightreader.jsx:533) makes a new `ABCJS.TimingCallbacks` without stopping the
  old one, and `stop` returns early once the tune button has switched the microphone off. So
  tune-off mid-piece, then start and the countdown, leaves the earlier timeline running with
  nothing able to stop it. Its notes would go on resetting the expected note and the latches, and
  its final event would record a second score and could move the playlist again. None of this is
  modelled.
- Network requests: fetching files and playlists, and getting and recording scores. Their results
  are action parameters, and the historical mean is an `Option<real>`.
- The synth and the renderer. Whether a tune rendered is a boolean.
- Tempo.MsPerBeat / Tempo.MsPerMeasure / Tempo.MeasureScalesInversely: durations are exact reals.
  JavaScript computes them in doubles and gets the nearest double, so `60000 / 7 * 7` is
  59999.99999999999. The identities these members state hold for the program only up to rounding.
- Scoring.ScoreOf: rounds with exact integer arithmetic. JavaScript's floating-point
  `correct / count * 100` can land a hair off a .5 boundary, which is not modelled.
- Text.Trim: JavaScript strings are UTF-16 code units. The model works on characters and lists
  the white-space set explicitly.
- Notes.NoteName: JavaScript prints numbers of magnitude 10^21 and above in exponent form. The
  model prints all integers in plain decimal.
- The reset that the final event schedules 100 ms later is the separate `Reset` action, not part
  of the final event.
- React's batching of state updates and its stale closures in `handleStart` are not modelled.
  Each action sees the state the previous one left.
- A failed render in the component: `loadABC` then reads `book[0]` of an empty tunebook (src/components/SightreaderApp.jsx:71) and throws a TypeError, so the synth is never set up. `SightreaderApp.LoadAbc` completes normally and only keeps the previous tune.
- Tempo.MatchValue: `parseInt` of a long digit string gives a double, exact only below 2^53. The model reads the digits as an unbounded integer.
- The ABC text box's render result, the tempo select's "ABC held" test and the microphone select's device choice are booleans on their actions (`TextLoaded`, `TempoChanged`, `MicChanged`). The re-render and the new microphone stream are not modelled.
- The component's `handleReset` (src/components/SightreaderApp.jsx:115-123) is not part of this model. It reports "Resetting...". When a tune is held, it also restarts ABCJS MIDI playback and resets the timer if one is set. Its playlist `onSelect` (src/components/SightreaderApp.jsx:151) only sets `playlistIndex` and is not modelled.

=== FILE: app.dfy ===
/**
 The React component of the sight-reader: its own reading of the tempo directive when ABC text
 is loaded, and the start and stop buttons, whose start waits three seconds before playing.
 */
module SightreaderApp {
  import opened Wrappers
  import opened Text
  import opened Tempo

  /** `loadABC`'s tempo: the default without a directive; otherwise the value of the first
      directive, zero included, with its line-feed-terminated form cut out of the text. */
  function AppTempo(text: string): (r: LoadedTempo)
    ensures FindTempo(text).None? ==> r.qpm == DefaultTempo && r.abc == text
    ensures FindTempo(text).Some? ==> r.abc == StripTempoLine(text)
    ensures FindTempo(text).Some? ==> r.qpm == MatchValue(text, FindTempo(text).value)
  {
    match FindTempo(text)
    case None => LoadedTempo(DefaultTempo, text)
    case Some(m) => LoadedTempo(MatchValue(text, m), StripTempoLine(text))
  }

  /** The component and the page read a directive alike except for a zero tempo: both cut out
      the same text, and their tempos agree exactly when the component's is not zero, in which
      case the page falls back to the default. */
  lemma TempoPathsAgree(text: string)
    ensures AppTempo(text).abc == LoadAbcTempo(text, None).abc
    ensures AppTempo(text).qpm == LoadAbcTempo(text, None).qpm <==> AppTempo(text).qpm != 0
    ensures AppTempo(text).qpm == 0 ==> LoadAbcTempo(text, None).qpm == DefaultTempo
  {
    if FindTempo(text).None? {
      FindTempoIsLeftmostMatch(text);
      NoMatchKeepsText(text);
    }
  }

  /** A directive "Q:" with digits and a line feed, after text with no 'Q' in it, sets the
      component's tempo to the digits' value, zero included, and is cut out of the text. */
  lemma AppDirectiveSetsTempo(s: string, pre: string, ds: string, post: string)
    requires s == pre + "Q:" + ds + "\n" + post
    requires forall i | 0 <= i < |pre| :: !IsQ(pre[i])
    requires |ds| >= 1 && AllDigits(ds)
    ensures AppTempo(s) == LoadedTempo(DecimalValue(ds), pre + post)
  {
    var p := |pre|;
    var m := TempoMatch(p, p + 2, p + 2 + |ds|);
    DirectivePieces(s, pre, ds, post);
    DirectiveScan(s, pre, ds, post);
    LeftmostDirective(s, p, ds);
    AppWithDirective(s, m, s[..p] + s[p + 3 + |ds|..]);
  }

  /** With a directive, the component's tempo is the first directive's value and its text the
      stripped text. */
  lemma AppWithDirective(abc: string, m: TempoMatch, stripped: string)
    requires FindTempo(abc) == Some(m) && StripTempoLine(abc) == stripped
    ensures AppTempo(abc) == LoadedTempo(MatchValue(abc, m), stripped)
  {
  }

  /** "Q:0" followed by a line feed: the component plays at tempo 0 and the page at 60. */
  lemma ZeroTempoDiffers(pre: string, post: string)
    requires forall i | 0 <= i < |pre| :: !IsQ(pre[i])
    ensures AppTempo(pre + "Q:0\n" + post) == LoadedTempo(0, pre + post)
    ensures LoadAbcTempo(pre + "Q:0\n" + post, None) == LoadedTempo(DefaultTempo, pre + post)
  {
    var s := pre + "Q:0\n" + post;
    assert s == pre + "Q:" + "0" + "\n" + post;
    assert AllDigits("0") && DecimalValue("0") == 0;
    AppDirectiveSetsTempo(s, pre, "0", post);
    TempoPathsAgree(s);
  }

  /** With "Q:0" the component's `getMillisecondsPerBeat` divides by zero: a beat lasts
      Infinity milliseconds, and so does a measure of any positive number of beats. */
  lemma ZeroTempoInfiniteBeat(pre: string, post: string, beatsPerMeasure: nat)
    requires forall i | 0 <= i < |pre| :: !IsQ(pre[i])
    requires beatsPerMeasure > 0
    ensures MsPerBeat(AppTempo(pre + "Q:0\n" + post).qpm) == Infinity
    ensures MsPerMeasure(AppTempo(pre + "Q:0\n" + post).qpm, beatsPerMeasure) == Infinity
  {
    ZeroTempoDiffers(pre, post);
  }

  // ---------------------------------------------------------------- the component's state

  /** The status line, as the reports that set it. */
  datatype AppStatus =
    | Welcome
    | AbcLoaded
    | SynthReady
    | NoValidAbc
    | StartingIn3
    | Playing
    | Stopped

  /** The text each report writes. */
  function Message(st: AppStatus): (m: string)
    ensures |m| > 0
  {
    match st
    case Welcome => "Select a file or enter ABC text."
    case AbcLoaded => "ABC loaded. Press start to play."
    case SynthReady => "Synth primed. Ready to start."
    case NoValidAbc => "No valid ABC loaded."
    case StartingIn3 => "Starting in 3…"
    case Playing => "Playing."
    case Stopped => "Stopped."
  }

  datatype App = App(
    abc: string,        // the text handed to the renderer
    qpm: nat,
    tunebook: bool,     // a rendered tune is held
    recording: bool,
    status: AppStatus,
    pending: nat,       // delayed starts not yet run
    micOn: bool,
    synthPlaying: bool)

  /** The state when the component mounts. */
  const AppInit: App := App("", DefaultTempo, false, false, Welcome, 0, false, false)

  /** `loadABC`: the tempo is read, the status reports the load, and a rendered tune replaces
      the held one (a failed render keeps the previous tune). */
  function LoadAbc(s: App, text: string, rendered: bool): (t: App)
    ensures t.abc == AppTempo(text).abc && t.qpm == AppTempo(text).qpm && t.status == AbcLoaded
    ensures FindTempo(text).None? ==> t.qpm == DefaultTempo && t.abc == text
    ensures FindTempo(text).Some? ==> t.qpm == MatchValue(text, FindTempo(text).value)
    ensures t.tunebook == (s.tunebook || rendered)
    ensures t.recording == s.recording && t.pending == s.pending && t.micOn == s.micOn
    ensures t.(abc := s.abc, qpm := s.qpm, status := s.status, tunebook := s.tunebook) == s
  {
    var tempo := AppTempo(text);
    s.(abc := tempo.abc, qpm := tempo.qpm, status := AbcLoaded, tunebook := s.tunebook || rendered)
  }

  /** `handleStop`: unguarded, it always switches recording, microphone and synth off and
      reports "Stopped.". */
  function HandleStop(s: App): (t: App)
    ensures !t.recording && !t.micOn && !t.synthPlaying && t.status == Stopped
    ensures t.(recording := s.recording, micOn := s.micOn, synthPlaying := s.synthPlaying, status := s.status) == s
  {
    s.(recording := false, micOn := false, synthPlaying := false, status := Stopped)
  }

  /** `handleStart`: without a tune it only reports; while recording it stops; otherwise it
      marks recording, reports the countdown and schedules the delayed start. */
  function HandleStart(s: App): (t: App)
    ensures !s.tunebook ==> t == s.(status := NoValidAbc)
    ensures s.tunebook && s.recording ==> t == HandleStop(s)
    ensures s.tunebook && !s.recording ==>
      t.recording && t.status == StartingIn3 && t.pending == s.pending + 1
      && t.micOn == s.micOn && t.synthPlaying == s.synthPlaying && t.abc == s.abc && t.qpm == s.qpm
    ensures s.tunebook && !s.recording ==>
      t.(recording := s.recording, status := s.status, pending := s.pending) == s
  {
    if !s.tunebook then s.(status := NoValidAbc)
    else if s.recording then HandleStop(s)
    else s.(recording := true, status := StartingIn3, pending := s.pending + 1)
  }

  /** The delayed start, three seconds later: microphone and synth start and "Playing." is
      reported, whatever happened in between. */
  function DelayedStart(s: App): (t: App)
    ensures t.micOn && t.synthPlaying && t.status == Playing
    ensures t.recording == s.recording && t.tunebook == s.tunebook
    ensures t.(micOn := s.micOn, synthPlaying := s.synthPlaying, status := s.status) == s
  {
    s.(micOn := true, synthPlaying := true, status := Playing)
  }

  datatype AppAction =
    | LoadText(text: string, rendered: bool)
    | Primed                  // the synth finished priming
    | StartPressed
    | StopPressed
    | StartTimer              // a scheduled start runs

  /** One action of the component; recording is only switched on with a tune held, and a held
      tune is never dropped. */
  function AppStep(s: App, a: AppAction): (t: App)
    ensures AppInv(s) ==> AppInv(t)
    ensures s.tunebook ==> t.tunebook
  {
    match a
    case LoadText(text, rendered) => LoadAbc(s, text, rendered)
    case Primed => s.(status := SynthReady)
    case StartPressed => HandleStart(s)
    case StopPressed => HandleStop(s)
    case StartTimer => if s.pending > 0 then DelayedStart(s.(pending := s.pending - 1)) else s
  }

  function AppRun(s: App, acts: seq<AppAction>): App
    decreases |acts|
  {
    if |acts| == 0 then s else AppRun(AppStep(s, acts[0]), acts[1..])
  }

  /** Recording is only ever switched on with a tune held, and a tune once held stays. */
  predicate AppInv(s: App) {
    s.recording ==> s.tunebook
  }

  lemma {:induction false} AppRunInv(s: App, acts: seq<AppAction>)
    requires AppInv(s)
    ensures AppInv(AppRun(s, acts))
    ensures s.tunebook ==> AppRun(s, acts).tunebook
    decreases |acts|
  {
    if |acts| > 0 {
      AppRunInv(AppStep(s, acts[0]), acts[1..]);
    }
  }

  /** Pressing start twice stops again: the second press undoes the first press's recording
      flag, and the start scheduled by the first press is still pending. */
  lemma StartTwiceStops(s: App)
    requires s.tunebook && !s.recording
    ensures var t := HandleStart(HandleStart(s));
      !t.recording && t.status == Stopped && t.pending == s.pending + 1
  {
  }

  /** Stopping changes nothing the second time. */
  lemma HandleStopIdempotent(s: App)
    ensures HandleStop(HandleStop(s)) == HandleStop(s)
  {
  }

  /** A stop before the delayed start does not cancel it: the microphone and synth start and
      "Playing." is reported although recording is off. */
  lemma StopBeforeDelayedStart(s: App)
    requires s.tunebook && !s.recording && s.pending == 0
    ensures var t := AppRun(s, [StartPressed, StopPressed, StartTimer]);
      !t.recording && t.micOn && t.synthPlaying && t.status == Playing && t.pending == 0
  {
    var s1 := AppStep(s, StartPressed);
    var s2 := AppStep(s1, StopPressed);
    assert s2.pending == 1 && !s2.recording;
    assert [StartPressed, StopPressed, StartTimer][1..] == [StopPressed, StartTimer];
    assert [StopPressed, StartTimer][1..] == [StartTimer];
  }
}

=== FILE: notes.dfy ===
/**
 Note names for MIDI note numbers: the pitch class from the scale table followed by the octave,
 with "-" for silence (note number 0). The arithmetic is JavaScript's: `%` keeps the sign of the
 dividend, `parseInt(n / 12)` cuts the fraction off towards zero, and a negative index into the
 scale table yields `undefined`, which added to a number gives NaN.
 */
module Notes {
  import opened Wrappers
  import opened Text

  const Scales: seq<string> := ["C", "C#", "D", "D#", "E", "F", "F#", "G", "G#", "A", "A#", "B"]

  /** The name shown for "no note". */
  const Silence: string := "-"

  /** `n % 12` in JavaScript: the remainder has the sign of `n`. */
  function PitchIndex(n: int): (r: int)
    ensures -12 < r < 12
    ensures n >= 0 ==> 0 <= r
    ensures n <= 0 ==> r <= 0
  {
    if n >= 0 then n % 12 else -((-n) % 12)
  }

  /** `midi_number_to_octave`: `parseInt(n / 12) - 1`, the quotient cut towards zero. */
  function Octave(n: int): (o: int)
    ensures n >= 0 ==> o >= -1
    ensures n <= 0 ==> o <= -1
  {
    (if n >= 0 then n / 12 else -((-n) / 12)) - 1
  }

  /** The truncating pair divides `n` by 12 like the Euclidean pair, with the remainder taking
      the sign of `n`; on a non-negative `n` the two pairs coincide. */
  lemma TruncatedDivision(n: int)
    ensures n == (Octave(n) + 1) * 12 + PitchIndex(n)
    ensures n >= 0 ==> Octave(n) == n / 12 - 1 && PitchIndex(n) == n % 12
    ensures PitchIndex(n) == 0 <==> n % 12 == 0
  {
  }

  /** `midi_number_to_string`: "-" for 0; the pitch class and octave for a positive number and for
      a negative multiple of 12; and "NaN" for the other negative numbers, whose remainder
      indexes before the start of the scale table. */
  function NoteName(n: int): (r: string)
    ensures r == Silence <==> n == 0
    ensures r == "NaN" <==> n < 0 && n % 12 != 0
  {
    TruncatedDivision(n);
    if n == 0 then Silence
    else
      var i := PitchIndex(n);
      if i < 0 then "NaN"
      else
        var r := Scales[i] + IntToDecimal(Octave(n));
        assert r[0] == Scales[i][0];
        r
  }

  /** For positive numbers the truncating arithmetic agrees with the Euclidean one. */
  lemma NoteNamePositive(n: int)
    requires n >= 1
    ensures NoteName(n) == Scales[n % 12] + IntToDecimal(n / 12 - 1)
  {
    TruncatedDivision(n);
  }

  /** Middle C and concert A. */
  lemma NoteNameExamples()
    ensures NoteName(60) == "C4" && NoteName(69) == "A4" && NoteName(61) == "C#4"
  {
    NoteNamePositive(60);
    NoteNamePositive(69);
    NoteNamePositive(61);
    assert IntToDecimal(4) == "4";
  }

  // ---------------------------------------------------------------- reading a name back

  /** The position of the first `x` in `xs`. */
  function IndexOf(xs: seq<string>, x: string): (r: Option<nat>)
    ensures r.Some? ==> r.value < |xs| && xs[r.value] == x && forall j | 0 <= j < r.value :: xs[j] != x
    ensures r.None? ==> x !in xs
  {
    if |xs| == 0 then None
    else if xs[0] == x then Some(0)
    else
      match IndexOf(xs[1..], x)
      case None => None
      case Some(k) => Some(k + 1)
  }

  /** A note name read back into a number: a pitch class ("C" or a sharp like "C#") and an
      octave. */
  function ParseNoteName(s: string): Option<int> {
    var split := if |s| >= 2 && s[1] == '#' then 2 else 1;
    if |s| < split then None
    else
      match (IndexOf(Scales, s[..split]), ParseInt(s[split..]))
      case (Some(i), Some(octave)) => Some((octave + 1) * 12 + i)
      case _ => None
  }

  /** The scale names are distinct, so each is found at its own position. */
  lemma ScaleIndex(i: nat)
    requires i < 12
    ensures IndexOf(Scales, Scales[i]) == Some(i)
  {
    ScalesDistinct();
  }

  /** No two scale names are equal: they differ in their letter or in the sharp. */
  lemma ScalesDistinct()
    ensures forall j, k | 0 <= j < k < 12 :: Scales[j] != Scales[k]
  {
    forall j, k | 0 <= j < k < 12
      ensures Scales[j] != Scales[k]
    {
      assert Scales[j][0] != Scales[k][0] || |Scales[j]| != |Scales[k]|;
    }
  }

  /** A scale name followed by the decimal octave reads back as that pitch class and octave. */
  lemma NameParses(i: nat, octave: int)
    requires i < 12
    ensures ParseNoteName(Scales[i] + IntToDecimal(octave)) == Some((octave + 1) * 12 + i)
  {
    var name := Scales[i];
    var ds := IntToDecimal(octave);
    var s := name + ds;
    ScaleIndex(i);
    IntToDecimalRoundTrip(octave);
    if |name| == 2 {
      assert s[1] == '#';
      assert s[..2] == name && s[2..] == ds;
    } else {
      assert |name| == 1 && s[1] == ds[0];
      assert s[..1] == name && s[1..] == ds;
    }
  }

  /** Every name other than "-" and "NaN" reads back as the number it names. */
  lemma NoteNameRoundTrip(n: int)
    requires n != 0 && NoteName(n) != "NaN"
    ensures ParseNoteName(NoteName(n)) == Some(n)
  {
    NamedIndex(n);
    NoteNameSpelled(n);
    NameParses(PitchIndex(n), Octave(n));
    TruncatedDivision(n);
  }

  /** A number named other than "NaN" has a remainder that indexes the scale table. */
  lemma NamedIndex(n: int)
    requires NoteName(n) != "NaN"
    ensures 0 <= PitchIndex(n) < 12
  {
    TruncatedDivision(n);
  }

  /** A number whose remainder is not negative is named by its pitch class and octave. */
  lemma NoteNameSpelled(n: int)
    requires n != 0 && PitchIndex(n) >= 0
    ensures NoteName(n) == Scales[PitchIndex(n)] + IntToDecimal(Octave(n))
  {
  }
}

=== FILE: playlist.dfy ===
/**
 Playlist navigation: the index moves by clamping into [0, length - 1], which for an empty
 playlist is the inverted range [0, -1].
 */
module Playlists {

  /** `val > max ? max : val < min ? min : val`: the upper bound is tested first, so an inverted
      range (min > max) yields max for every value above it and min for the rest. */
  function Clamp(v: int, lo: int, hi: int): (r: int)
    ensures lo <= hi ==> lo <= r <= hi
    ensures lo <= v <= hi ==> r == v
    ensures r == v || r == lo || r == hi
  {
    if v > hi then hi else if v < lo then lo else v
  }

  /** Within a proper range, clamping picks the point of the range nearest to the value. */
  lemma ClampNearest(v: int, lo: int, hi: int, x: int)
    requires lo <= x <= hi
    ensures var r := Clamp(v, lo, hi);
      (if v >= r then v - r else r - v) <= (if v >= x then v - x else x - v)
  {
  }

  /** Within a proper range, clamping a clamped value again changes nothing. (In an inverted
      range it does: a value above `hi` goes to `hi`, and `hi` then goes to `lo`.) */
  lemma ClampIdempotent(v: int, lo: int, hi: int)
    requires lo <= hi
    ensures Clamp(Clamp(v, lo, hi), lo, hi) == Clamp(v, lo, hi)
  {
  }

  /** The loaded playlist: its file names and the position of the current one. */
  datatype Playlist = Playlist(files: seq<string>, index: int)

  /** Where the index can sit: inside the list, or at 0 or -1 when the list is empty. */
  predicate Placed(p: Playlist) {
    if |p.files| == 0 then p.index == 0 || p.index == -1 else 0 <= p.index < |p.files|
  }

  /** `clear_playlist`: no files, index 0. */
  const Cleared: Playlist := Playlist([], 0)

  /** A freshly fetched playlist starts at its first file. */
  function Loaded(files: seq<string>): (p: Playlist)
    ensures p.files == files && Placed(p)
  {
    Playlist(files, 0)
  }

  /** `goto_playlist_index(i)`: the index moves to `i` clamped into the list. */
  function Goto(p: Playlist, i: int): (q: Playlist)
    ensures q.files == p.files
    ensures Placed(q)
    ensures 0 <= i < |p.files| ==> q.index == i
    ensures |p.files| > 0 && i < 0 ==> q.index == 0
    ensures |p.files| > 0 && i >= |p.files| ==> q.index == |p.files| - 1
  {
    p.(index := Clamp(i, 0, |p.files| - 1))
  }

  /** `increment_playlist`. */
  function Next(p: Playlist): (q: Playlist)
    ensures q.files == p.files && Placed(q)
    ensures |p.files| > 0 && Placed(p) ==>
      q.index == if p.index < |p.files| - 1 then p.index + 1 else p.index
  {
    Goto(p, p.index + 1)
  }

  /** `decrement_playlist`. */
  function Prev(p: Playlist): (q: Playlist)
    ensures q.files == p.files && Placed(q)
    ensures |p.files| > 0 && Placed(p) ==> q.index == if p.index > 0 then p.index - 1 else 0
  {
    Goto(p, p.index - 1)
  }

  /** Moving on from the last file, or back from the first, stays put; otherwise the index
      moves by exactly one. */
  lemma NextPrevSteps(p: Playlist)
    requires |p.files| > 0 && Placed(p)
    ensures p.index == |p.files| - 1 ==> Next(p) == p
    ensures p.index < |p.files| - 1 ==> Next(p).index == p.index + 1
    ensures p.index == 0 ==> Prev(p) == p
    ensures p.index > 0 ==> Prev(p).index == p.index - 1
  {
  }

  /** Next and Prev undo each other away from the ends. */
  lemma NextPrevInverse(p: Playlist)
    requires |p.files| > 0 && Placed(p)
    ensures p.index < |p.files| - 1 ==> Prev(Next(p)) == p
    ensures p.index > 0 ==> Next(Prev(p)) == p
  {
  }

  /** On an empty playlist the index flips between 0 and -1: moving on from 0 gives -1, and
      moving back from -1 gives 0. */
  lemma EmptyPlaylistFlips(p: Playlist)
    requires |p.files| == 0
    ensures p.index >= 0 ==> Next(p).index == -1
    ensures p.index <= 0 ==> Prev(p).index == 0
    ensures Goto(p, 0).index == -1
  {
  }
}

=== FILE: preprocess.dfy ===
/**
 Preprocessing of ABC score text before it is rendered: each line is trimmed, blank
 lines and '%' comments are dropped, information-only header fields (title, composer,
 notes, ...) are dropped, and the kept header lines are moved in front of the note lines.
 */
module Preprocess {
  import opened Text

  /** Header letters whose lines are dropped. */
  const IgnoredHeaderKeys: set<char> := {'T', 'C', 'Z', 'S', 'N', 'G', 'O', 'H', 'I', 'P', 'W', 'F', 'B'}

  /** How the loop treats one trimmed line. */
  datatype LineKind = Skipped | IgnoredHeader | Header | Notes

  /** A line shaped like an ABC field: an ASCII letter, then ':'. */
  predicate IsField(line: string) {
    |line| >= 2 && line[1] == ':' && IsAsciiLetter(line[0])
  }

  /** The loop's tests on a trimmed line: blank lines and '%' comments are skipped, field lines
      are headers (ignored ones by their key, in either case), and anything else is notes. */
  function Classify(line: string): (k: LineKind)
    ensures k != Skipped ==> |line| > 0 && line[0] != '%'
    ensures k == Header || k == IgnoredHeader <==> IsField(line)
    ensures k == IgnoredHeader <==> IsField(line) && ToUpperAscii(line[0]) in IgnoredHeaderKeys
  {
    if |line| == 0 || line[0] == '%' then Skipped
    else if IsField(line) then
      (if ToUpperAscii(line[0]) in IgnoredHeaderKeys then IgnoredHeader else Header)
    else Notes
  }

  /** Every line trimmed, as the loop does before looking at it. */
  function TrimAll(lines: seq<string>): (ts: seq<string>)
    ensures |ts| == |lines|
    ensures forall i | 0 <= i < |ts| :: ts[i] == Trim(lines[i]) && Trimmed(ts[i])
  {
    seq(|lines|, i requires 0 <= i < |lines| => Trim(lines[i]))
  }

  /** The lines of kind `k`, in input order: `SelectMembers` states which lines and how often,
      `SelectAtPositions` their order, and `SelectAppend` how selection splits over a
      concatenation. */
  function Select(ts: seq<string>, k: LineKind): (r: seq<string>)
    ensures |r| <= |ts|
  {
    if |ts| == 0 then []
    else
      var prev := Select(ts[..|ts| - 1], k);
      if Classify(ts[|ts| - 1]) == k then prev + [ts[|ts| - 1]] else prev
  }

  /** Every selected line is one of `ts` and of kind `k`, every line of `ts` of kind `k` is
      selected, and each line is selected as many times as it occurs when it is of kind `k`. */
  lemma {:induction false} SelectMembers(ts: seq<string>, k: LineKind)
    ensures forall j | 0 <= j < |Select(ts, k)| :: Select(ts, k)[j] in ts && Classify(Select(ts, k)[j]) == k
    ensures forall i | 0 <= i < |ts| && Classify(ts[i]) == k :: ts[i] in Select(ts, k)
    ensures forall x :: multiset(Select(ts, k))[x] == if Classify(x) == k then multiset(ts)[x] else 0
  {
    if |ts| > 0 {
      var init := ts[..|ts| - 1];
      SelectMembers(init, k);
      assert ts == init + [ts[|ts| - 1]];
    }
  }

  /** The positions of the lines of kind `k`, increasing: each is the position of a line of
      kind `k`, and every such line's position is among them. */
  function Positions(ts: seq<string>, k: LineKind): (ps: seq<nat>)
    ensures forall j | 0 <= j < |ps| :: ps[j] < |ts| && Classify(ts[ps[j]]) == k
    ensures forall j, l | 0 <= j < l < |ps| :: ps[j] < ps[l]
    ensures forall i | 0 <= i < |ts| && Classify(ts[i]) == k :: i in ps
  {
    if |ts| == 0 then []
    else
      var init := ts[..|ts| - 1];
      var prev := Positions(init, k);
      assert forall j | 0 <= j < |prev| :: ts[prev[j]] == init[prev[j]];
      if Classify(ts[|ts| - 1]) == k then prev + [|ts| - 1] else prev
  }

  /** Selection keeps order: the selected lines are the lines at the increasing positions of the
      lines of kind `k`, one for one. */
  lemma {:induction false} SelectAtPositions(ts: seq<string>, k: LineKind)
    ensures |Select(ts, k)| == |Positions(ts, k)|
    ensures forall j | 0 <= j < |Select(ts, k)| :: Select(ts, k)[j] == ts[Positions(ts, k)[j]]
  {
    if |ts| > 0 {
      var init := ts[..|ts| - 1];
      SelectAtPositions(init, k);
      var r, ps := Select(init, k), Positions(init, k);
      forall j | 0 <= j < |r|
        ensures r[j] == ts[ps[j]]
      {
        assert ts[ps[j]] == init[ps[j]];
      }
      if Classify(ts[|ts| - 1]) == k {
        assert Select(ts, k) == r + [ts[|ts| - 1]];
        assert Positions(ts, k) == ps + [|ts| - 1];
      } else {
        assert Select(ts, k) == r && Positions(ts, k) == ps;
      }
    }
  }

  /** The header lines preprocessing keeps, in input order. */
  function KeptHeaders(lines: seq<string>): seq<string> {
    Select(TrimAll(lines), Header)
  }

  /** The note lines preprocessing keeps, in input order. */
  function NoteLines(lines: seq<string>): seq<string> {
    Select(TrimAll(lines), Notes)
  }

  /** A group as it appears among the output lines: an empty group still leaves one empty line. */
  function AsLines(group: seq<string>): seq<string> {
    if |group| == 0 then [""] else group
  }

  /** The preprocessed text: its lines are exactly the kept headers, then the note lines. */
  function Preprocessed(data: string): (r: string)
    ensures Split(r, '\n') == AsLines(KeptHeaders(Split(data, '\n'))) + AsLines(NoteLines(Split(data, '\n')))
  {
    var lines := Split(data, '\n');
    var r := Join(KeptHeaders(lines), '\n') + "\n" + Join(NoteLines(lines), '\n');
    SelectNoNewline(lines, Header);
    SelectNoNewline(lines, Notes);
    OutputLines(KeptHeaders(lines), NoteLines(lines));
    r
  }

  /** Joining the groups with one separator between them, and splitting again, gives the groups back. */
  lemma OutputLines(h: seq<string>, n: seq<string>)
    requires forall j | 0 <= j < |h| :: '\n' !in h[j]
    requires forall j | 0 <= j < |n| :: '\n' !in n[j]
    ensures Split(Join(h, '\n') + "\n" + Join(n, '\n'), '\n') == AsLines(h) + AsLines(n)
  {
    var a := AsLines(h);
    var b := AsLines(n);
    assert Join(a, '\n') == Join(h, '\n');
    assert Join(b, '\n') == Join(n, '\n');
    JoinAppend(a, b, '\n');
    SplitJoin(a + b, '\n');
  }

  /** No selected line holds a newline when no input line does: trimming only removes characters. */
  lemma SelectNoNewline(lines: seq<string>, k: LineKind)
    requires forall i | 0 <= i < |lines| :: '\n' !in lines[i]
    ensures forall j | 0 <= j < |Select(TrimAll(lines), k)| :: '\n' !in Select(TrimAll(lines), k)[j]
  {
    var ts := TrimAll(lines);
    var r := Select(ts, k);
    SelectMembers(ts, k);
    forall j | 0 <= j < |r|
      ensures '\n' !in r[j]
    {
      var i :| 0 <= i < |ts| && ts[i] == r[j];
      assert ts[i] == Trim(lines[i]);
    }
  }

  /** The loop of the source: one pass over the lines, pushing each trimmed line into the
      header or the note group, then joining the groups. */
  method PreprocessAbcData(data: string) returns (out: string)
    ensures out == Preprocessed(data)
  {
    var lines := Split(data, '\n');
    ghost var ts := TrimAll(lines);
    var headers: seq<string> := [];
    var notes: seq<string> := [];
    var i := 0;
    while i < |lines|
      invariant 0 <= i <= |lines|
      invariant headers == Select(ts[..i], Header)
      invariant notes == Select(ts[..i], Notes)
    {
      var line := Trim(lines[i]);
      assert line == ts[i];
      SelectStep(ts, i, Header);
      SelectStep(ts, i, Notes);
      if |line| == 0 || line[0] == '%' {
        // blank or comment
      } else if |line| >= 2 && line[1] == ':' && IsAsciiLetter(line[0]) {
        if ToUpperAscii(line[0]) !in IgnoredHeaderKeys {
          headers := headers + [line];
        }
      } else {
        notes := notes + [line];
      }
      i := i + 1;
    }
    assert ts[..i] == ts;
    assert headers == KeptHeaders(lines) && notes == NoteLines(lines);
    out := Join(headers, '\n') + "\n" + Join(notes, '\n');
  }

  /** Selecting from one more line extends the selection by that line exactly when it is of kind `k`. */
  lemma SelectStep(ts: seq<string>, i: nat, k: LineKind)
    requires i < |ts|
    ensures Select(ts[..i + 1], k) == if Classify(ts[i]) == k then Select(ts[..i], k) + [ts[i]] else Select(ts[..i], k)
  {
    assert ts[..i + 1][..i] == ts[..i];
  }

  /** Selecting from a concatenation selects from each part. */
  lemma {:induction false} SelectAppend(a: seq<string>, b: seq<string>, k: LineKind)
    ensures Select(a + b, k) == Select(a, k) + Select(b, k)
  {
    if |b| > 0 {
      assert (a + b)[..|a + b| - 1] == a + b[..|b| - 1];
      SelectAppend(a, b[..|b| - 1], k);
    } else {
      assert a + b == a;
    }
  }

  /** Lines all of kind `k` are kept whole by `k` and dropped by every other kind. */
  lemma {:induction false} SelectOfClassified(xs: seq<string>, k: LineKind, other: LineKind)
    requires forall j | 0 <= j < |xs| :: Classify(xs[j]) == k
    requires other != k
    ensures Select(xs, k) == xs
    ensures Select(xs, other) == []
  {
    if |xs| > 0 {
      SelectOfClassified(xs[..|xs| - 1], k, other);
      assert xs[..|xs| - 1] + [xs[|xs| - 1]] == xs;
    }
  }

  /** A group re-read as lines: the padding line is blank and so dropped. */
  lemma SelectAsLines(xs: seq<string>, k: LineKind, other: LineKind)
    requires forall j | 0 <= j < |xs| :: Classify(xs[j]) == k
    requires k != Skipped && other != Skipped && other != k
    ensures Select(AsLines(xs), k) == xs
    ensures Select(AsLines(xs), other) == []
  {
    if |xs| == 0 {
      assert [""][..0] == [];
    } else {
      SelectOfClassified(xs, k, other);
    }
  }

  /** Lines that are all trimmed already are left alone by trimming. */
  lemma TrimAllOfTrimmed(xs: seq<string>)
    requires forall j | 0 <= j < |xs| :: Trimmed(xs[j])
    ensures TrimAll(xs) == xs
  {
    forall j | 0 <= j < |xs|
      ensures TrimAll(xs)[j] == xs[j]
    {
      TrimOfTrimmed(xs[j]);
    }
  }

  /** Every selected line is trimmed and of the selected kind. */
  lemma GroupTrimmed(lines: seq<string>, k: LineKind)
    ensures forall j | 0 <= j < |Select(TrimAll(lines), k)| ::
      Trimmed(Select(TrimAll(lines), k)[j]) && Classify(Select(TrimAll(lines), k)[j]) == k
  {
    var ts := TrimAll(lines);
    var r := Select(ts, k);
    SelectMembers(ts, k);
    forall j | 0 <= j < |r|
      ensures Trimmed(r[j]) && Classify(r[j]) == k
    {
      var i :| 0 <= i < |ts| && ts[i] == r[j];
    }
  }

  /** Re-reading the output lines finds the same two groups. */
  lemma RegroupOutput(h: seq<string>, n: seq<string>)
    requires forall j | 0 <= j < |h| :: Trimmed(h[j]) && Classify(h[j]) == Header
    requires forall j | 0 <= j < |n| :: Trimmed(n[j]) && Classify(n[j]) == Notes
    ensures KeptHeaders(AsLines(h) + AsLines(n)) == h
    ensures NoteLines(AsLines(h) + AsLines(n)) == n
  {
    var a := AsLines(h);
    var b := AsLines(n);
    assert forall j | 0 <= j < |a + b| :: Trimmed((a + b)[j]) by {
      forall j | 0 <= j < |a + b|
        ensures Trimmed((a + b)[j])
      {
        if j >= |a| {
          assert (a + b)[j] == b[j - |a|];
        }
      }
    }
    TrimAllOfTrimmed(a + b);
    SelectAppend(a, b, Header);
    SelectAppend(a, b, Notes);
    SelectAsLines(h, Header, Notes);
    SelectAsLines(n, Notes, Header);
  }

  /** Preprocessing its own output changes nothing: the output holds only what the filter keeps. */
  lemma PreprocessIdempotent(data: string)
    ensures Preprocessed(Preprocessed(data)) == Preprocessed(data)
  {
    var lines := Split(data, '\n');
    var h := KeptHeaders(lines);
    var n := NoteLines(lines);
    var out := Preprocessed(data);
    var lines2 := Split(out, '\n');
    assert lines2 == AsLines(h) + AsLines(n);
    GroupTrimmed(lines, Header);
    GroupTrimmed(lines, Notes);
    RegroupOutput(h, n);
    assert KeptHeaders(lines2) == h && NoteLines(lines2) == n;
  }


  /** `x` is the trimmed form of one of `lines` and passes the filter: it is neither blank,
      nor a '%' comment, nor an ignored header field. */
  predicate KeptLine(lines: seq<string>, x: string) {
    && x in TrimAll(lines) && Trimmed(x) && |x| > 0 && x[0] != '%'
    && (IsField(x) ==> ToUpperAscii(x[0]) !in IgnoredHeaderKeys)
  }

  /** A line of the header or the note group is a trimmed input line that the filter keeps. */
  lemma GroupLine(lines: seq<string>, k: LineKind, x: string)
    requires k == Header || k == Notes
    requires x in Select(TrimAll(lines), k)
    ensures KeptLine(lines, x)
  {
    var ts := TrimAll(lines);
    SelectMembers(ts, k);
    var j :| 0 <= j < |Select(ts, k)| && Select(ts, k)[j] == x;
    var i :| 0 <= i < |ts| && ts[i] == x;
  }

  /** Each output line is either the blank line standing for an empty group, or the trimmed
      form of an input line that the filter keeps. */
  lemma PreprocessedLines(data: string)
    ensures forall x | x in Split(Preprocessed(data), '\n') :: x == "" || KeptLine(Split(data, '\n'), x)
  {
    var lines := Split(data, '\n');
    var h := KeptHeaders(lines);
    var n := NoteLines(lines);
    var out := Split(Preprocessed(data), '\n');
    assert out == AsLines(h) + AsLines(n);
    forall x | x in out && x != ""
      ensures KeptLine(lines, x)
    {
      if x in h {
        GroupLine(lines, Header, x);
      } else {
        GroupLine(lines, Notes, x);
      }
    }
  }

  /** The text of a fetched score before preprocessing: trimmed, then a leading byte-order
      mark removed. The removal can never fire, because trimming already drops U+FEFF. */
  function PrepareFileText(data: string): (r: string)
    ensures r == Trim(data)
  {
    var t := Trim(data);
    if |t| > 0 && t[0] == '\U{FEFF}' then
      assert false; // unreachable: U+FEFF is white space, so Trim has removed it
      t
    else t
  }
}

=== FILE: scoring.dfy ===
/**
 The score of a play-through: the share of note checks that heard the expected note, as a
 percentage rounded to the nearest integer (halves rounding up, as `Math.round` does), the
 text shown for the running tally, and the test that decides whether a finished piece moves
 the playlist on.
 */
module Scoring {
  import opened Wrappers
  import opened Text

  /** `Math.round(correct / count * 100)` as a JavaScript number: a whole percentage when some
      note was checked, `Infinity` for hits without checks, `NaN` for no hits and no checks. */
  datatype Score = Percent(value: int) | Unbounded | Undefined

  /** The score of a tally. With checks, it is the integer nearest to 100 * correct / count,
      halves going up: p - 1/2 <= 100 * correct / count < p + 1/2. */
  function ScoreOf(correct: nat, count: nat): (s: Score)
    ensures count == 0 ==> (s == Undefined <==> correct == 0) && (s == Unbounded <==> correct > 0)
    ensures count > 0 ==> s.Percent? && s.value >= 0
    ensures count > 0 ==> (2 * s.value - 1) * count <= 200 * correct < (2 * s.value + 1) * count
  {
    if count == 0 then (if correct == 0 then Undefined else Unbounded)
    else
      var q := (200 * correct + count) / (2 * count);
      RoundHalfUp(200 * correct, count, q);
      Percent(q)
  }

  /** Integer division by 2n of x + n brackets x / n within one half. */
  lemma RoundHalfUp(x: nat, n: nat, q: int)
    requires n > 0 && q == (x + n) / (2 * n)
    ensures (2 * q - 1) * n <= x < (2 * q + 1) * n
    ensures q >= 0
  {
    var r := (x + n) % (2 * n);
    assert x + n == 2 * n * q + r && 0 <= r < 2 * n;
    assert (2 * q - 1) * n == x - r;
    assert (2 * q + 1) * n == x + 2 * n - r;
  }

  /** Only one integer lies within a half of 100 * correct / count, so the score is that integer. */
  lemma ScoreIsNearest(correct: nat, count: nat, p: int)
    requires count > 0
    requires (2 * p - 1) * count <= 200 * correct < (2 * p + 1) * count
    ensures ScoreOf(correct, count) == Percent(p)
  {
    var q := ScoreOf(correct, count).value;
    if p < q {
      MultiplyLeq(2 * p + 1, 2 * q - 1, count);
    } else if q < p {
      MultiplyLeq(2 * q + 1, 2 * p - 1, count);
    }
  }

  lemma MultiplyLeq(a: int, b: int, n: nat)
    requires a <= b
    ensures a * n <= b * n
  {
  }

  /** A tally with no more hits than checks scores between 0 and 100. */
  lemma ScoreWithinPercent(correct: nat, count: nat)
    requires 0 < count && correct <= count
    ensures 0 <= ScoreOf(correct, count).value <= 100
  {
    var p := ScoreOf(correct, count).value;
    if p > 100 {
      MultiplyLeq(201, 2 * p - 1, count);
    }
  }

  /** More hits for the same number of checks never lower the score. */
  lemma ScoreMonotone(c1: nat, c2: nat, count: nat)
    requires 0 < count && c1 <= c2
    ensures ScoreOf(c1, count).value <= ScoreOf(c2, count).value
  {
    var p1 := ScoreOf(c1, count).value;
    var p2 := ScoreOf(c2, count).value;
    if p1 > p2 {
      MultiplyLeq(2 * p2 + 1, 2 * p1 - 1, count);
    }
  }

  // ---------------------------------------------------------------- the tally display

  /** The running tally as displayed: "-" before any check, else "correct/count = score%". */
  function ScoreText(correct: nat, count: nat): (r: string)
    ensures r == "-" <==> count == 0
  {
    if count == 0 then "-"
    else NatToDecimal(correct) + "/" + NatToDecimal(count) + " = " + NatToDecimal(ScoreOf(correct, count).value) + "%"
  }

  /** Digits contain neither '/' nor ' '. */
  lemma DigitsHaveNoPunctuation(ds: string)
    requires AllDigits(ds)
    ensures '/' !in ds && ' ' !in ds
  {
  }

  /** "c/rest" splits on '/' into `c` and `rest` when neither holds a '/'. */
  lemma SlashSplits(c: string, rest: string)
    requires '/' !in c && '/' !in rest
    ensures Split(c + "/" + rest, '/') == [c, rest]
  {
    SplitAtSeparator(c, '/', rest);
    SplitNoSeparator(rest, '/');
  }

  /** "n = p" splits on ' ' into `n`, "=" and `p` when neither holds a ' '. */
  lemma EqualsSplits(n: string, p: string)
    requires ' ' !in n && ' ' !in p
    ensures Split(n + " = " + p, ' ') == [n, "=", p]
  {
    assert n + " = " + p == n + [' '] + ("=" + [' '] + p);
    SplitAtSeparator(n, ' ', "=" + [' '] + p);
    SplitAtSeparator("=", ' ', p);
    SplitNoSeparator(p, ' ');
  }

  /** Reading the tally display back: the part before '/' is the number of hits, and the part
      after it starts with the number of checks, then "=", then the score with '%'. */
  lemma ScoreTextReadsBack(correct: nat, count: nat)
    requires count > 0
    ensures var parts := Split(ScoreText(correct, count), '/');
      && |parts| == 2
      && ParseInt(parts[0]) == Some(correct)
      && Split(parts[1], ' ') == [NatToDecimal(count), "=", NatToDecimal(ScoreOf(correct, count).value) + "%"]
      && ParseInt(Split(parts[1], ' ')[0]) == Some(count)
  {
    var c := NatToDecimal(correct);
    var n := NatToDecimal(count);
    var ds := NatToDecimal(ScoreOf(correct, count).value);
    DigitsHaveNoPunctuation(c);
    DigitsHaveNoPunctuation(n);
    DigitsHaveNoPunctuation(ds);
    var p := ds + "%";
    assert '/' !in p && ' ' !in p;
    var rest := n + " = " + p;
    assert ScoreText(correct, count) == c + "/" + rest;
    SlashSplits(c, rest);
    EqualsSplits(n, p);
    IntToDecimalRoundTrip(correct);
    IntToDecimalRoundTrip(count);
  }

  // ---------------------------------------------------------------- the end of a piece

  /** How JavaScript prints a score: the decimal digits of a percentage, "Infinity" or "NaN". */
  function ScoreString(s: Score): string {
    match s
    case Percent(v) => IntToDecimal(v)
    case Unbounded => "Infinity"
    case Undefined => "NaN"
  }

  /** `'Scored ' + score + '.'`: the status line at the end of a piece. */
  function ScoredMessage(s: Score): (r: string)
    ensures |r| >= 8 && r[..7] == "Scored " && r[|r| - 1] == '.'
  {
    "Scored " + ScoreString(s) + "."
  }

  /** The status line names the score: a percentage reads back as itself. */
  lemma ScoredMessageReadsBack(s: Score)
    ensures var r := ScoredMessage(s);
      && (s.Percent? ==> ParseInt(r[7..|r| - 1]) == Some(s.value))
      && (s == Unbounded ==> r[7..|r| - 1] == "Infinity")
      && (s == Undefined ==> r[7..|r| - 1] == "NaN")
  {
    var r := ScoredMessage(s);
    assert r[7..|r| - 1] == ScoreString(s);
    if s.Percent? {
      IntToDecimalRoundTrip(s.value);
    }
  }

  /** `score >= mean` for a JavaScript number: Infinity is at least every mean, NaN is at least none. */
  predicate AtLeast(s: Score, mean: real) {
    match s
    case Percent(v) => v as real >= mean
    case Unbounded => true
    case Undefined => false
  }

  /** The auto-continue test of the end of a piece: the option is on, the score statistics hold
      a mean that is not zero, and the score reaches it. `mean` is None when no statistics or
      no mean were fetched. */
  predicate ShouldAdvance(autoContinue: bool, s: Score, mean: Option<real>)
    ensures ShouldAdvance(autoContinue, s, mean) ==> autoContinue && mean.Some? && mean.value != 0.0
    ensures s.Undefined? ==> !ShouldAdvance(autoContinue, s, mean)
    ensures autoContinue && mean.Some? && mean.value != 0.0 && s.Percent? ==>
      (ShouldAdvance(autoContinue, s, mean) <==> s.value as real >= mean.value)
  {
    autoContinue && mean.Some? && mean.value != 0.0 && AtLeast(s, mean.value)
  }

  /** A piece with neither checks nor hits never advances the playlist. */
  lemma NoTalliesNeverAdvance(autoContinue: bool, mean: Option<real>)
    ensures !ShouldAdvance(autoContinue, ScoreOf(0, 0), mean)
  {
  }

  /** Hits without checks score Infinity, which passes every non-zero mean. */
  lemma HitsWithoutChecksAdvance(correct: nat, mean: real)
    requires correct > 0 && mean != 0.0
    ensures ShouldAdvance(true, ScoreOf(correct, 0), Some(mean))
  {
  }

  /** Raising the hits for the same number of checks keeps an advancing score advancing. */
  lemma AdvanceMonotone(c1: nat, c2: nat, count: nat, autoContinue: bool, mean: Option<real>)
    requires c1 <= c2
    requires ShouldAdvance(autoContinue, ScoreOf(c1, count), mean)
    ensures ShouldAdvance(autoContinue, ScoreOf(c2, count), mean)
  {
    if count > 0 {
      ScoreMonotone(c1, c2, count);
    }
  }

  /** With a mean of 80, 17 hits out of 20 (85) advance and 14 out of 20 (70) do not. */
  lemma MeanEightyExample()
    ensures ScoreOf(17, 20) == Percent(85) && ShouldAdvance(true, ScoreOf(17, 20), Some(80.0))
    ensures ScoreOf(14, 20) == Percent(70) && !ShouldAdvance(true, ScoreOf(14, 20), Some(80.0))
  {
    ScoreIsNearest(17, 20, 85);
    ScoreIsNearest(14, 20, 70);
  }
}

=== FILE: session.dfy ===
/**
 The practice session of the sight-reader: the tally of note checks, the two latches of the
 ignore-duration policy, the expected and heard notes, whether the microphone, the pitch sampler
 and the note checker with its timeline are running, and the playlist position. Every timer
 tick, timeline event, button press and finished request is an explicit action; the session is
 the fold of `Step` over a sequence of them.
 */
module Session {
  import opened Wrappers
  import opened Scoring
  import opened Playlists

  /** The loudness below which the sampler hears silence. */
  const MinVolume: real := 0.075

  datatype Session = Session(
    count: nat,            // note checks since the counters were last zeroed
    correct: nat,          // checks that heard the expected note
    checked: bool,         // ignore-duration latch: this note has been counted
    found: bool,           // ignore-duration latch: this note has been heard
    expected: int,         // the note the timeline is at (0 for a rest or none)
    current: int,          // the note the sampler last heard (0 for silence)
    recording: bool,       // the microphone is on (or a countdown is under way)
    sampling: bool,        // the pitch sampler interval is running
    playing: bool,         // the note checker interval and the timeline are running
    countdowns: nat,       // countdowns begun and not yet finished
    playlist: Playlist,
    reloads: nat,          // calls of `update_playlist` (each asks for the current file, which
                           // loads nothing when the index is outside the list)
    scores: seq<Score>,    // scores recorded at the ends of pieces
    status: Status)

  /** The status line, as the reports that set it. */
  datatype Status =
    | Instructions
    | Playing
    | Stopped
    | Scored(score: Score)
    | SelectBeforeStarting
    | SelectBeforeResetting
    | Loading(name: string)
    | LoadedOk
    | LoadFailed
    | InvalidText
    | PlaylistFailed(name: string)

  /** The text each report writes. */
  function Message(st: Status): (m: string)
    ensures |m| > 0
  {
    match st
    case Instructions => "1. Select your mic 2. Select your ABC file 3. Press start"
    case Playing => "Playing."
    case Stopped => "Stopped."
    case Scored(score) => ScoredMessage(score)
    case SelectBeforeStarting => "Select a file before starting."
    case SelectBeforeResetting => "Select a file before resetting."
    case Loading(name) => "Loading file " + name + "."
    case LoadedOk => "File loaded. Press start to play."
    case LoadFailed => "Unable to load file."
    case InvalidText => "Invalid ABC text. Please try again."
    case PlaylistFailed(name) => "Unable to load playlist file: " + name
  }

  /** The state when the page opens, its status line showing the instructions written into the
      page. */
  const Init: Session := Session(0, 0, false, false, 0, 0, false, false, false, 0, Cleared, 0, [], Instructions)

  datatype Action =
    | Sample(volume: real, note: int)   // a tick of the pitch sampler; `note` is the detected pitch
    | Check(ignoreDuration: bool)       // a tick of the note checker
    | Beat(pitch: Option<int>)          // a timeline event; None for an event without a pitch
    | Finish(autoContinue: bool, mean: Option<real>)  // the timeline's final (null) event
    | StartClick(ready: bool)           // a click of the start button, which happens only while the
                                        // button is enabled; ready: a tune with at least one line is
                                        // loaded
    | CountdownDone                     // a countdown animation reaches its end
    | TuneClick
    | ResetClick(ready: bool)           // ready: a file is selected
    | Reset                             // the reset scheduled by the final event
    | GotoFile(i: int)
    | NextFile
    | PrevFile
    | FileSelected(name: string)        // a choice in the file select
    | PlaylistLoaded(files: seq<string>)
    | PlaylistFetchFailed(name: string)
    | FileLoaded(ok: bool)
    | TextLoaded(valid: bool)           // the ABC text box changed; valid: it renders a tune with lines
    | TempoChanged(loaded: bool)        // the tempo select changed; loaded: ABC text is held
    | MicChanged(chosen: bool)          // the microphone select changed; chosen: a device is selected

  // ---------------------------------------------------------------- the tally

  /** `get_pitch`: the heard note is the detected pitch when the input is loud enough, else 0. */
  function SampleNote(s: Session, volume: real, note: int): (t: Session)
    ensures t.current == (if volume > MinVolume then note else 0)
    ensures t.(current := s.current) == s
  {
    s.(current := if volume > MinVolume then note else 0)
  }

  /** `check_note`. The strict policy counts every tick and every tick that hears the expected
      note, a rest heard as silence included. The ignore-duration policy counts a note once, on
      its first tick, and a hit once, on its first matching tick. */
  function CheckNote(s: Session, ignoreDuration: bool): (t: Session)
    ensures t.(count := s.count, correct := s.correct, checked := s.checked, found := s.found) == s
    ensures !ignoreDuration ==> t.count == s.count + 1 && t.checked == s.checked && t.found == s.found
    ensures !ignoreDuration ==> (t.correct == s.correct + 1 <==> s.expected == s.current)
    ensures !ignoreDuration ==> (t.correct == s.correct <==> s.expected != s.current)
    ensures ignoreDuration ==> t.checked && (t.count == s.count + 1 <==> !s.checked) && (t.count == s.count <==> s.checked)
    ensures ignoreDuration ==> (t.found <==> s.found || s.expected == s.current)
    ensures ignoreDuration ==> (t.correct == s.correct + 1 <==> !s.found && s.expected == s.current)
    ensures ignoreDuration ==> (t.correct == s.correct <==> s.found || s.expected != s.current)
  {
    if ignoreDuration then
      var s1 := if !s.checked then s.(checked := true, count := s.count + 1) else s;
      if !s1.found && s1.expected == s1.current then s1.(found := true, correct := s1.correct + 1) else s1
    else
      s.(correct := s.correct + (if s.expected == s.current then 1 else 0), count := s.count + 1)
  }

  /** A timeline event with a note: both latches open and the expected note becomes its pitch
      (0 when the event has none). */
  function BeginNote(s: Session, pitch: Option<int>): (t: Session)
    ensures !t.checked && !t.found
    ensures pitch.Some? ==> t.expected == pitch.value
    ensures pitch.None? ==> t.expected == 0
    ensures t.(checked := s.checked, found := s.found, expected := s.expected) == s
  {
    s.(checked := false, found := false, expected := pitch.GetOr(0))
  }

  // ---------------------------------------------------------------- stopping and starting

  /** `stop`: does nothing unless the microphone is on; otherwise switches off the microphone,
      the sampler, the checker and the timeline, silences both notes and reports "Stopped.".
      (With the microphone off through the tune button, the checker and the timeline keep
      running.) */
  function Stop(s: Session): (t: Session)
    ensures !s.recording ==> t == s
    ensures !t.recording
    ensures s.recording ==> !t.sampling && !t.playing
    ensures s.recording ==> t.expected == 0 && t.current == 0 && t.status == Stopped
    ensures t.(recording := s.recording, sampling := s.sampling, playing := s.playing,
      expected := s.expected, current := s.current, status := s.status) == s
  {
    if !s.recording then s
    else s.(recording := false, sampling := false, playing := false, expected := 0, current := 0,
            status := Stopped)
  }

  /** A second stop changes nothing. */
  lemma StopIdempotent(s: Session)
    ensures Stop(Stop(s)) == Stop(s)
  {
  }

  /** `start`, run when a countdown ends: the counters are zeroed (the latches are not), and the
      microphone, the sampler, the checker and the timeline all start. */
  function StartPlaying(s: Session): (t: Session)
    ensures t.count == 0 && t.correct == 0
    ensures t.checked == s.checked && t.found == s.found
    ensures t.recording && t.sampling && t.playing && t.status == Playing
    ensures t.playlist == s.playlist && t.expected == s.expected && t.current == s.current
    ensures t.(count := s.count, correct := s.correct, recording := s.recording,
      sampling := s.sampling, playing := s.playing, status := s.status) == s
  {
    s.(count := 0, correct := 0, recording := true, sampling := true, playing := true,
       status := Playing)
  }

  /** The start button: without a loaded tune it only reports; while the microphone is on it
      stops; otherwise it begins a countdown, which switches the microphone flag on at once. */
  function PressStart(s: Session, ready: bool): (t: Session)
    ensures !ready ==> t == s.(status := SelectBeforeStarting)
    ensures ready && s.recording ==> t == Stop(s)
    ensures ready && !s.recording ==> t == s.(recording := true, countdowns := s.countdowns + 1)
  {
    if !ready then s.(status := SelectBeforeStarting)
    else if s.recording then Stop(s)
    else s.(recording := true, countdowns := s.countdowns + 1)
  }

  /** The tune button: `stop_mic` while the microphone is on, `start_mic` otherwise. Stopping
      the microphone silences the heard note and leaves the note checker and the timeline
      running; nothing else changes either way. */
  function PressTune(s: Session): (t: Session)
    ensures t.recording == !s.recording && t.sampling == !s.recording
    ensures s.recording ==> t.current == 0
    ensures !s.recording ==> t.current == s.current
    ensures t.(recording := s.recording, sampling := s.sampling, current := s.current) == s
  {
    if s.recording then s.(current := 0, recording := false, sampling := false)
    else s.(recording := true, sampling := true)
  }

  // ---------------------------------------------------------------- the playlist

  /** `update_playlist`: zeroes both counters and asks for the current file, which loads nothing
      when the index is outside the list (an empty playlist). */
  function Reload(s: Session): (t: Session)
    ensures t.count == 0 && t.correct == 0 && t.reloads == s.reloads + 1
    ensures t.(count := s.count, correct := s.correct, reloads := s.reloads) == s
  {
    s.(count := 0, correct := 0, reloads := s.reloads + 1)
  }

  /** `goto_playlist_index`, `increment_playlist` and `decrement_playlist`: move to `q` and
      reload exactly when the index changed. */
  function Navigate(s: Session, q: Playlist): (t: Session)
    ensures t.playlist == q
    ensures t.reloads == s.reloads + 1 <==> q.index != s.playlist.index
    ensures t.reloads == s.reloads <==> q.index == s.playlist.index
    ensures q.index != s.playlist.index ==> t.count == 0 && t.correct == 0
    ensures q.index == s.playlist.index ==> t == s.(playlist := q)
    ensures q.index != s.playlist.index ==>
      t.(count := s.count, correct := s.correct, reloads := s.reloads) == s.(playlist := q)
  {
    if q.index != s.playlist.index then Reload(s.(playlist := q)) else s.(playlist := q)
  }

  /** `reset`: zero the count, stop, and reload the current file. */
  function ResetSession(s: Session): (t: Session)
    ensures t.count == 0 && t.correct == 0 && t.reloads == s.reloads + 1
    ensures !t.recording && t.playlist == s.playlist
    ensures s.recording ==> !t.playing
    ensures t == Reload(Stop(s))
  {
    Reload(Stop(s.(count := 0)))
  }

  // ---------------------------------------------------------------- the end of a piece

  /** The timeline's final event: the checker stops, the score is recorded and reported, the
      session stops (which reports "Stopped." over the score if the microphone was on), and
      the playlist moves on when the auto-continue test passes. */
  function FinishPiece(s: Session, autoContinue: bool, mean: Option<real>): (t: Session)
    ensures t.scores == s.scores + [ScoreOf(s.correct, s.count)]
    ensures !t.playing && !t.recording
    ensures t.playlist.files == s.playlist.files
    ensures !ShouldAdvance(autoContinue, ScoreOf(s.correct, s.count), mean) ==> t.playlist == s.playlist
    ensures t.playlist.index == s.playlist.index ==>
      t.count == s.count && t.correct == s.correct && t.reloads == s.reloads
    ensures t.playlist.index != s.playlist.index ==>
      t.count == 0 && t.correct == 0 && t.reloads == s.reloads + 1
    ensures s.recording ==> !t.sampling && t.expected == 0 && t.current == 0
    ensures !s.recording ==> t.sampling == s.sampling && t.expected == s.expected && t.current == s.current
    ensures t.(count := s.count, correct := s.correct, reloads := s.reloads, playlist := s.playlist,
      playing := s.playing, recording := s.recording, sampling := s.sampling, expected := s.expected,
      current := s.current, scores := s.scores, status := s.status) == s
  {
    var score := ScoreOf(s.correct, s.count);
    var ended := s.(playing := false, scores := s.scores + [score], status := Scored(score));
    var stopped := Stop(ended);
    if ShouldAdvance(autoContinue, score, mean) then Navigate(stopped, Next(stopped.playlist)) else stopped
  }

  // ---------------------------------------------------------------- loading

  /** A name ending in ".abc" or ".pls" is fetched; any other name, the empty one included, loads
      the text box. */
  lemma CustomFileSuffix(stem: string, name: string)
    ensures !CustomFile(stem + ".abc") && !CustomFile(stem + ".pls")
    ensures |name| == 0 || (name[|name| - 1] != 'c' && name[|name| - 1] != 's') ==> CustomFile(name)
  {
    assert (stem + ".abc")[|stem|..] == ".abc";
    assert (stem + ".pls")[|stem|..] == ".pls";
  }

  /** `name` ends with `suffix`. */
  predicate HasSuffix(name: string, suffix: string) {
    |suffix| <= |name| && name[|name| - |suffix|..] == suffix
  }

  /** A file select choice that is neither an ABC file nor a playlist: the text box is loaded. */
  predicate CustomFile(name: string) {
    !HasSuffix(name, ".abc") && !HasSuffix(name, ".pls")
  }

  /** The file select: report the choice, empty the playlist and run `update_playlist` on it;
      a choice that is neither ".abc" nor ".pls" then loads the text box at once, whose
      `load_abc` stops the session. */
  function SelectFile(s: Session, name: string): (t: Session)
    ensures t.playlist == Cleared && t.count == 0 && t.correct == 0 && t.reloads == s.reloads + 1
    ensures !CustomFile(name) ==> t.status == Loading(name) && t.recording == s.recording
    ensures CustomFile(name) ==> !t.recording && t.status == (if s.recording then Stopped else Loading(name))
    ensures t.scores == s.scores && t.countdowns == s.countdowns
    ensures !CustomFile(name) ==>
      t.(count := s.count, correct := s.correct, reloads := s.reloads, playlist := s.playlist,
         status := s.status) == s
    ensures CustomFile(name) ==>
      t.(count := s.count, correct := s.correct, reloads := s.reloads, playlist := s.playlist,
         status := s.status, recording := s.recording, sampling := s.sampling, playing := s.playing,
         expected := s.expected, current := s.current) == s
  {
    var cleared := Reload(s.(playlist := Cleared, status := Loading(name)));
    if CustomFile(name) then Stop(cleared) else cleared
  }

  // ---------------------------------------------------------------- the fold

  /** One action. Sampler ticks arrive only while the sampler runs, checker ticks and timeline
      events only while the checker and timeline run, and a countdown only ends if one began. */
  function Step(s: Session, a: Action): (t: Session)
    ensures a.Finish? && s.playing ==> t.scores == s.scores + [ScoreOf(s.correct, s.count)]
    ensures !(a.Finish? && s.playing) ==> t.scores == s.scores
  {
    match a
    case Sample(volume, note) => if s.sampling then SampleNote(s, volume, note) else s
    case Check(ignoreDuration) => if s.playing then CheckNote(s, ignoreDuration) else s
    case Beat(pitch) => if s.playing then BeginNote(s, pitch) else s
    case Finish(autoContinue, mean) => if s.playing then FinishPiece(s, autoContinue, mean) else s
    case StartClick(ready) => PressStart(s, ready)
    case CountdownDone => if s.countdowns > 0 then StartPlaying(s.(countdowns := s.countdowns - 1)) else s
    case TuneClick => PressTune(s)
    case ResetClick(ready) =>
      if ready then ResetSession(s) else s.(status := SelectBeforeResetting)
    case Reset => ResetSession(s)
    case GotoFile(i) => Navigate(s, Goto(s.playlist, i))
    case NextFile => Navigate(s, Next(s.playlist))
    case PrevFile => Navigate(s, Prev(s.playlist))
    case FileSelected(name) => SelectFile(s, name)
    case PlaylistLoaded(files) => Reload(s.(playlist := Loaded(files)))
    case PlaylistFetchFailed(name) => s.(status := PlaylistFailed(name))
    case FileLoaded(ok) =>
      if ok then Stop(s).(status := LoadedOk) else s.(status := LoadFailed)
    case TextLoaded(valid) => Stop(s).(status := if valid then LoadedOk else InvalidText)
    case TempoChanged(loaded) => if loaded then Stop(s) else s
    case MicChanged(chosen) => if chosen then Stop(s) else s
  }

  function Run(s: Session, acts: seq<Action>): Session
    decreases |acts|
  {
    if |acts| == 0 then s else Run(Step(s, acts[0]), acts[1..])
  }

  // ---------------------------------------------------------------- what runs keep

  /** The sampler only runs with the microphone on, and the playlist index sits where clamping
      can put it. */
  predicate Inv(s: Session) {
    (s.sampling ==> s.recording) && Placed(s.playlist)
  }

  lemma InitInv()
    ensures Inv(Init)
  {
  }

  lemma StepInv(s: Session, a: Action)
    requires Inv(s)
    ensures Inv(Step(s, a))
  {
    if a.GotoFile? || a.NextFile? || a.PrevFile? || a.FileSelected? || a.PlaylistLoaded? {
      NavigationInv(s, a);
    } else {
      SessionInv(s, a);
    }
  }

  lemma NavigationInv(s: Session, a: Action)
    requires Inv(s)
    requires a.GotoFile? || a.NextFile? || a.PrevFile? || a.FileSelected? || a.PlaylistLoaded?
    ensures Inv(Step(s, a))
  {
  }

  lemma SessionInv(s: Session, a: Action)
    requires Inv(s)
    requires !(a.GotoFile? || a.NextFile? || a.PrevFile? || a.FileSelected? || a.PlaylistLoaded?)
    ensures Inv(Step(s, a))
  {
  }

  lemma {:induction false} RunInv(s: Session, acts: seq<Action>)
    requires Inv(s)
    ensures Inv(Run(s, acts))
    decreases |acts|
  {
    if |acts| > 0 {
      StepInv(s, acts[0]);
      RunInv(Step(s, acts[0]), acts[1..]);
    }
  }

  // ---------------------------------------------------------------- tally windows

  /** A stretch of sampler ticks and checker ticks under one policy, with no timeline event. */
  predicate TickWindow(acts: seq<Action>, ignoreDuration: bool) {
    forall i | 0 <= i < |acts| :: acts[i] == Check(ignoreDuration) || acts[i].Sample?
  }

  /** The notes the checker observes in a window: while the sampler runs each sampler tick
      replaces the heard note (silence when too quiet), and with the microphone off through the
      tune button the heard note stays; each checker tick observes the note heard last. */
  function Heard(current: int, sampling: bool, acts: seq<Action>): seq<int>
    decreases |acts|
  {
    if |acts| == 0 then []
    else match acts[0]
      case Sample(volume, note) =>
        Heard(if !sampling then current else if volume > MinVolume then note else 0, sampling, acts[1..])
      case Check(_) => [current] + Heard(current, sampling, acts[1..])
      case _ => Heard(current, sampling, acts[1..])
  }

  /** How many times `x` occurs in `xs`. */
  function Occurrences(xs: seq<int>, x: int): nat
  {
    if |xs| == 0 then 0 else (if xs[0] == x then 1 else 0) + Occurrences(xs[1..], x)
  }

  /** A window's first action is followed by a window under the same policy. */
  lemma WindowTail(acts: seq<Action>, ignoreDuration: bool)
    requires |acts| > 0 && TickWindow(acts, ignoreDuration)
    ensures TickWindow(acts[1..], ignoreDuration)
    ensures acts[0] == Check(ignoreDuration) || acts[0].Sample?
  {
    assert forall i | 0 <= i < |acts| - 1 :: acts[1..][i] == acts[i + 1];
  }

  /** Under the strict policy a window adds one check per checker tick and one hit per tick that
      observes the expected note; the expected note and the running intervals stay. */
  lemma {:induction false} StrictWindow(s: Session, acts: seq<Action>)
    requires s.playing && TickWindow(acts, false)
    ensures var t := Run(s, acts); var h := Heard(s.current, s.sampling, acts);
      && t.count == s.count + |h|
      && t.correct == s.correct + Occurrences(h, s.expected)
      && t.expected == s.expected && t.playing && t.sampling == s.sampling
    decreases |acts|
  {
    if |acts| > 0 {
      WindowTail(acts, false);
      var s1 := Step(s, acts[0]);
      StrictWindow(s1, acts[1..]);
    }
  }

  /** Under the ignore-duration policy a window adds a check only if the note was not yet
      counted and the window has a checker tick, and a hit only if the note was not yet heard and
      some tick observes it; the latches record both. */
  lemma {:induction false} IgnoreDurationWindow(s: Session, acts: seq<Action>)
    requires s.playing && TickWindow(acts, true)
    ensures var t := Run(s, acts); var h := Heard(s.current, s.sampling, acts);
      && t.count == s.count + (if !s.checked && |h| > 0 then 1 else 0)
      && t.correct == s.correct + (if !s.found && s.expected in h then 1 else 0)
      && (t.checked <==> s.checked || |h| > 0)
      && (t.found <==> s.found || s.expected in h)
      && t.expected == s.expected && t.playing && t.sampling == s.sampling
    decreases |acts|
  {
    if |acts| > 0 {
      WindowTail(acts, true);
      var s1 := Step(s, acts[0]);
      IgnoreDurationWindow(s1, acts[1..]);
    }
  }

  /** After a timeline event with a note, the ticks up to the next event add exactly one check
      if there is a checker tick and none otherwise, and one hit exactly when some tick observes
      the note. */
  lemma NoteWindow(s: Session, pitch: Option<int>, acts: seq<Action>)
    requires s.playing && TickWindow(acts, true)
    ensures var t := Run(Step(s, Beat(pitch)), acts); var h := Heard(s.current, s.sampling, acts);
      && t.count == s.count + (if |h| > 0 then 1 else 0)
      && t.correct == s.correct + (if pitch.GetOr(0) in h then 1 else 0)
  {
    IgnoreDurationWindow(Step(s, Beat(pitch)), acts);
  }

  // ---------------------------------------------------------------- the end of a piece

  /** On a non-empty playlist the final event moves the index on by at most one, and by one
      exactly when the auto-continue test passes and the piece is not the last; a move zeroes
      the tally and reloads. */
  lemma FinishAdvancesAtMostOne(s: Session, autoContinue: bool, mean: Option<real>)
    requires |s.playlist.files| > 0 && Placed(s.playlist)
    ensures var t := FinishPiece(s, autoContinue, mean); var i := s.playlist.index;
      && (t.playlist.index == i || t.playlist.index == i + 1)
      && (t.playlist.index == i + 1 <==>
            ShouldAdvance(autoContinue, ScoreOf(s.correct, s.count), mean) && i < |s.playlist.files| - 1)
      && (t.playlist.index == i + 1 ==> t.count == 0 && t.correct == 0 && t.reloads == s.reloads + 1)
  {
    NextPrevSteps(s.playlist);
  }

  /** A piece that ended with no checks and no hits never moves the playlist. */
  lemma FinishWithoutTallyStays(s: Session, autoContinue: bool, mean: Option<real>)
    requires s.count == 0 && s.correct == 0
    ensures FinishPiece(s, autoContinue, mean).playlist == s.playlist
    ensures FinishPiece(s, autoContinue, mean).reloads == s.reloads
  {
    NoTalliesNeverAdvance(autoContinue, mean);
  }

  /** The score report at the end of a piece survives only when the microphone was already off:
      otherwise the stop that follows reports "Stopped." over it. */
  lemma FinishStatus(s: Session, autoContinue: bool, mean: Option<real>)
    ensures s.recording ==> FinishPiece(s, autoContinue, mean).status == Stopped
    ensures !s.recording ==> FinishPiece(s, autoContinue, mean).status == Scored(ScoreOf(s.correct, s.count))
  {
  }

  // ---------------------------------------------------------------- buttons and navigation

  /** Pressing start while idle and letting the countdown run starts a piece with a zeroed tally
      and the latches as they were. */
  lemma StartThenCountdown(s: Session)
    requires !s.recording && s.countdowns == 0
    ensures var t := Run(s, [StartClick(true), CountdownDone]);
      && t.playing && t.sampling && t.recording && t.status == Playing
      && t.count == 0 && t.correct == 0 && t.checked == s.checked && t.found == s.found
      && t.countdowns == 0 && t.expected == s.expected && t.current == s.current && t.scores == s.scores
  {
    var s1 := Step(s, StartClick(true));
    assert [StartClick(true), CountdownDone][1..] == [CountdownDone];
    assert Run(s1, [CountdownDone]) == Step(s1, CountdownDone);
  }

  /** Stopping does not cancel a countdown: started and stopped before the countdown ends, the
      piece still starts when it does. */
  lemma StopDoesNotCancelCountdown(s: Session)
    requires !s.recording && s.countdowns == 0
    ensures Run(s, [StartClick(true), StartClick(true), CountdownDone]).playing
  {
    var s1 := Step(s, StartClick(true));
    var s2 := Step(s1, StartClick(true));
    assert s2.countdowns == 1;
    assert [StartClick(true), StartClick(true), CountdownDone][1..] == [StartClick(true), CountdownDone];
    assert [StartClick(true), CountdownDone][1..] == [CountdownDone];
  }

  /** On a non-empty playlist, moving past either end changes nothing at all, and moving
      inside zeroes the tally and reloads. */
  lemma NavigationSteps(s: Session)
    requires |s.playlist.files| > 0 && Placed(s.playlist)
    ensures s.playlist.index == |s.playlist.files| - 1 ==> Step(s, NextFile) == s
    ensures s.playlist.index == 0 ==> Step(s, PrevFile) == s
    ensures s.playlist.index < |s.playlist.files| - 1 ==>
      var t := Step(s, NextFile); t.playlist.index == s.playlist.index + 1 && t.count == 0 && t.correct == 0 && t.reloads == s.reloads + 1
    ensures s.playlist.index > 0 ==>
      var t := Step(s, PrevFile); t.playlist.index == s.playlist.index - 1 && t.count == 0 && t.correct == 0 && t.reloads == s.reloads + 1
  {
    NextPrevSteps(s.playlist);
  }

  /** Every path through `load_abc` or the microphone select ends a piece as the stop button
      does: the microphone is off afterwards, a piece that was recording has stopped, and the
      recorded scores stay; the tally stays too except where the file select reloads. */
  lemma LoadingStops(s: Session, a: Action)
    requires a.TextLoaded? || a == TempoChanged(true) || a == MicChanged(true)
      || (a.FileSelected? && CustomFile(a.name))
    ensures var t := Step(s, a);
      && !t.recording
      && (s.recording ==> !t.playing && !t.sampling && t.expected == 0 && t.current == 0)
      && t.scores == s.scores && t.countdowns == s.countdowns
      && (!a.FileSelected? ==> t.count == s.count && t.correct == s.correct)
  {
  }

  /** With the microphone off, every checker tick observes the note held when it went off. */
  lemma {:induction false} HeardWhileMicOff(current: int, acts: seq<Action>)
    ensures forall j | 0 <= j < |Heard(current, false, acts)| :: Heard(current, false, acts)[j] == current
    decreases |acts|
  {
    if |acts| > 0 {
      HeardWhileMicOff(current, acts[1..]);
    }
  }

  // ---------------------------------------------------------------- a reachable oddity

  /** Runs compose: running `a` and then `b` is running `a + b`. */
  lemma {:induction false} RunAppend(s: Session, a: seq<Action>, b: seq<Action>)
    ensures Run(s, a + b) == Run(Run(s, a), b)
    decreases |a|
  {
    if |a| > 0 {
      assert (a + b)[0] == a[0] && (a + b)[1..] == a[1..] + b;
      RunAppend(Step(s, a[0]), a[1..], b);
    } else {
      assert a + b == b;
    }
  }

  /** Stopping a playing session and starting it again keeps the latches but silences both
      notes, so that the expected note and the heard note agree. */
  lemma StopThenRestart(s: Session)
    requires s.recording && s.countdowns == 0
    ensures var t := Run(s, [StartClick(true), StartClick(true), CountdownDone]);
      && t.playing && t.sampling && t.count == 0 && t.correct == 0
      && t.expected == 0 && t.current == 0 && t.checked == s.checked && t.found == s.found
      && t.scores == s.scores
  {
    var s1 := Step(s, StartClick(true));
    assert !s1.recording && s1.countdowns == 0 && s1.expected == 0 && s1.current == 0;
    RunAppend(s, [StartClick(true)], [StartClick(true), CountdownDone]);
    assert [StartClick(true)] + [StartClick(true), CountdownDone] == [StartClick(true), StartClick(true), CountdownDone];
    assert Run(s, [StartClick(true)]) == s1;
    StartThenCountdown(s1);
  }

  /** A piece whose first note was counted but missed: the latch says counted, not heard. */
  lemma MissedNote(s: Session, p: int)
    requires s.playing && s.sampling && s.current != p
    ensures var t := Run(s, [Beat(Some(p)), Check(true)]);
      && t.checked && !t.found && t.count == s.count + 1 && t.correct == s.correct
      && t.recording == s.recording && t.countdowns == s.countdowns && t.scores == s.scores
  {
    var s1 := Step(s, Beat(Some(p)));
    assert [Beat(Some(p)), Check(true)][1..] == [Check(true)];
    assert Run(s1, [Check(true)]) == Step(s1, Check(true));
  }

  /** The actions of `HitsCanExceedChecks`: a piece starts, its first note is counted but
      missed, the session is stopped and restarted, and one check follows. */
  const Oddity: seq<Action> := [
    StartClick(true), CountdownDone, Beat(Some(60)), Check(true),
    StartClick(true), StartClick(true), CountdownDone, Check(true)]

  /** Because `start` zeroes the counters but not the latches, hits can exceed checks: from any
      idle, silent session (the opening one among them), after the restart the note is still marked
      counted but not heard, and the silence heard for the silenced expected note is a hit
      without a check. Ending the piece then scores Infinity. */
  lemma HitsCanExceedChecks(s: Session)
    requires !s.recording && s.countdowns == 0 && s.current == 0
    ensures Run(s, Oddity).correct == 1 && Run(s, Oddity).count == 0
    ensures Step(Run(s, Oddity), Finish(true, Some(80.0))).scores == s.scores + [Unbounded]
  {
    var restarted := Oddity[..7];
    assert Oddity == restarted + [Check(true)];
    OddityRestarted(s);
    var s3 := Run(s, restarted);
    RunAppend(s, restarted, [Check(true)]);
    assert Run(s3, [Check(true)]) == CheckNote(s3, true);
    FinishScoresInfinity(Run(s, Oddity), true, Some(80.0));
  }

  /** A piece ending with hits and no checks records the score Infinity. */
  lemma FinishScoresInfinity(s: Session, autoContinue: bool, mean: Option<real>)
    requires s.playing && s.correct > 0 && s.count == 0
    ensures Step(s, Finish(autoContinue, mean)).scores == s.scores + [Unbounded]
  {
    assert Step(s, Finish(autoContinue, mean)) == FinishPiece(s, autoContinue, mean);
  }

  /** The first seven actions of `Oddity` leave a playing session with a zeroed tally whose
      note is marked counted but not heard, expecting and hearing silence. */
  lemma OddityRestarted(s: Session)
    requires !s.recording && s.countdowns == 0 && s.current == 0
    ensures var t := Run(s, Oddity[..7]);
      && t.playing && t.checked && !t.found && t.count == 0 && t.correct == 0
      && t.expected == 0 && t.current == 0 && t.scores == s.scores
  {
    var started := [StartClick(true), CountdownDone];
    var missed := [Beat(Some(60)), Check(true)];
    var restarted := [StartClick(true), StartClick(true), CountdownDone];
    assert Oddity[..7] == started + missed + restarted;
    StartThenCountdown(s);
    var s1 := Run(s, started);
    MissedNote(s1, 60);
    var s2 := Run(s1, missed);
    StopThenRestart(s2);
    RunAppend(s, started, missed);
    RunAppend(s, started + missed, restarted);
  }
}

=== FILE: tempo.dfy ===
/**
 Tempo resolution when a score is loaded. The tempo (quarter notes per minute) comes from
 the tempo selector when one is chosen, else from the first `Q:<digits>` directive in the
 score text (matched case-insensitively by the regular expression /Q:\s*(\d+)/i), else it
 is the default of 60. The directive is cut out of the text by a second regular expression,
 /Q:\s*(\d+\n)/i, which only matches when the digits are directly followed by a line feed.
 */
module Tempo {
  import opened Wrappers
  import opened Text

  const DefaultTempo: nat := 60

  predicate IsQ(c: char) {
    c == 'Q' || c == 'q'
  }

  // ---------------------------------------------------------------- the two regular expressions

  /** After the "Q:" at `i`, `s` reads as `\s*\d+` up to `b`, with the digits starting at `j`. */
  ghost predicate SpacesThenDigits(s: string, i: int, j: int, b: int) {
    0 <= i && i + 2 <= j < b <= |s| && AllSpaces(s[i + 2..j]) && AllDigits(s[j..b])
  }

  /** The line-feed form: the digits are followed by the line feed at `end - 1`. */
  ghost predicate SpacesThenDigitsLine(s: string, i: int, j: int, end: int) {
    0 < end <= |s| && SpacesThenDigits(s, i, j, end - 1) && s[end - 1] == '\n'
  }

  /** Where /Q:\s*(\d+)/i can match: 'Q' or 'q' at `i`, then ':', then white space, then at least one digit. */
  ghost predicate RegexTempoAt(s: string, i: int) {
    && 0 <= i && i + 2 <= |s| && IsQ(s[i]) && s[i + 1] == ':'
    && exists j, k :: SpacesThenDigits(s, i, j, k)
  }

  /** A match of /Q:\s*(\d+\n)/i that starts at `i` and ends just before `end`. */
  ghost predicate RegexTempoLineSpan(s: string, i: int, end: int) {
    && 0 <= i && i + 2 <= end <= |s| && IsQ(s[i]) && s[i + 1] == ':'
    && exists j :: SpacesThenDigitsLine(s, i, j, end)
  }

  ghost predicate RegexTempoLineAt(s: string, i: int) {
    exists end :: RegexTempoLineSpan(s, i, end)
  }

  // ---------------------------------------------------------------- greedy scanning

  /** The end of the digit run starting at `j`. */
  function DigitsEnd(s: string, j: nat): (k: nat)
    requires j <= |s|
    ensures j <= k <= |s|
    ensures AllDigits(s[j..k])
    ensures k == |s| || !IsDigit(s[k])
    decreases |s| - j
  {
    if j < |s| && IsDigit(s[j]) then DigitsEnd(s, j + 1) else j
  }

  /** A run that is all white space and stops at a non-space is the one `SkipSpaces` finds. */
  lemma {:induction false} SkipSpacesUnique(s: string, j: nat, k: nat)
    requires j <= k <= |s| && AllSpaces(s[j..k]) && (k == |s| || !IsSpace(s[k]))
    ensures SkipSpaces(s, j) == k
    decreases k - j
  {
    if j < k {
      assert IsSpace(s[j..k][0]);
      assert s[j + 1..k] == s[j..k][1..];
      SkipSpacesUnique(s, j + 1, k);
    }
  }

  /** A run that is all digits and stops at a non-digit is the one `DigitsEnd` finds. */
  lemma {:induction false} DigitsEndUnique(s: string, j: nat, k: nat)
    requires j <= k <= |s| && AllDigits(s[j..k]) && (k == |s| || !IsDigit(s[k]))
    ensures DigitsEnd(s, j) == k
    decreases k - j
  {
    if j < k {
      assert IsDigit(s[j..k][0]);
      assert s[j + 1..k] == s[j..k][1..];
      DigitsEndUnique(s, j + 1, k);
    }
  }

  /** A match: the directive starts at `start`; its digits are `s[digitsStart..digitsEnd]`. */
  datatype TempoMatch = TempoMatch(start: nat, digitsStart: nat, digitsEnd: nat)

  /** The greedy match of /Q:\s*(\d+)/i at `i`, if any. */
  function TempoAt(s: string, i: nat): Option<TempoMatch>
    requires i <= |s|
  {
    if i + 2 <= |s| && IsQ(s[i]) && s[i + 1] == ':' then
      var j := SkipSpaces(s, i + 2);
      var k := DigitsEnd(s, j);
      if j < k then Some(TempoMatch(i, j, k)) else None
    else None
  }

  /** The greedy scan finds a match exactly where the regular expression has one. */
  lemma TempoAtIsRegex(s: string, i: nat)
    requires i <= |s|
    ensures TempoAt(s, i).Some? <==> RegexTempoAt(s, i)
  {
    if RegexTempoAt(s, i) {
      var j', k' :| SpacesThenDigits(s, i, j', k');
      assert s[j'..k'][0] == s[j'];
      SkipSpacesUnique(s, i + 2, j');
    }
    if TempoAt(s, i).Some? {
      var m := TempoAt(s, i).value;
      assert SpacesThenDigits(s, i, m.digitsStart, m.digitsEnd);
    }
  }

  /** The greedy match of /Q:\s*(\d+\n)/i at `i`, if any: the end of the match, just past the line feed. */
  function TempoLineAt(s: string, i: nat): Option<nat>
    requires i <= |s|
  {
    match TempoAt(s, i)
    case Some(m) => if m.digitsEnd < |s| && s[m.digitsEnd] == '\n' then Some(m.digitsEnd + 1) else None
    case None => None
  }

  lemma TempoLineAtIsRegex(s: string, i: nat)
    requires i <= |s|
    ensures TempoLineAt(s, i).Some? ==> RegexTempoLineSpan(s, i, TempoLineAt(s, i).value)
    ensures TempoLineAt(s, i).Some? <==> RegexTempoLineAt(s, i)
  {
    if TempoLineAt(s, i).Some? {
      var m := TempoAt(s, i).value;
      var e := TempoLineAt(s, i).value;
      assert SpacesThenDigitsLine(s, i, m.digitsStart, e);
      assert RegexTempoLineSpan(s, i, e);
    }
    if RegexTempoLineAt(s, i) {
      var e :| RegexTempoLineSpan(s, i, e);
      var j :| SpacesThenDigitsLine(s, i, j, e);
      assert s[j..e - 1][0] == s[j];
      SkipSpacesUnique(s, i + 2, j);
      DigitsEndUnique(s, j, e - 1);
    }
  }

  /** Every place where the line-feed form matches, the plain form matches too. */
  lemma LineMatchIsMatch(s: string, i: int)
    requires RegexTempoLineAt(s, i)
    ensures RegexTempoAt(s, i)
  {
    var e :| RegexTempoLineSpan(s, i, e);
    var j :| SpacesThenDigitsLine(s, i, j, e);
    assert SpacesThenDigitsLine(s, i, j, e);
  }

  // ---------------------------------------------------------------- leftmost matches

  /** The leftmost match of /Q:\s*(\d+)/i at or after `from`. */
  function FindTempoFrom(s: string, from: nat): (r: Option<TempoMatch>)
    requires from <= |s|
    ensures r.Some? ==> from <= r.value.start <= |s| && TempoAt(s, r.value.start) == r
    ensures r.Some? ==> forall i | from <= i < r.value.start :: TempoAt(s, i).None?
    ensures r.None? ==> forall i | from <= i <= |s| :: TempoAt(s, i).None?
    decreases |s| - from
  {
    if TempoAt(s, from).Some? then TempoAt(s, from)
    else if from == |s| then None
    else FindTempoFrom(s, from + 1)
  }

  /** `abcText.match(/Q:\s*(\d+)/i)`: the leftmost match; its capture is a white-space run after
      "Q:" followed by a maximal digit run. */
  function FindTempo(s: string): (r: Option<TempoMatch>)
    ensures r.Some? ==>
      && r.value.start + 2 <= r.value.digitsStart < r.value.digitsEnd <= |s|
      && AllSpaces(s[r.value.start + 2..r.value.digitsStart])
      && AllDigits(s[r.value.digitsStart..r.value.digitsEnd])
      && (r.value.digitsEnd == |s| || !IsDigit(s[r.value.digitsEnd]))
  {
    FindTempoFrom(s, 0)
  }

  /** The scan finds the leftmost position where the regular expression matches, and finds
      nothing exactly when the regular expression matches nowhere. */
  lemma FindTempoIsLeftmostMatch(s: string)
    ensures FindTempo(s).None? <==> forall i :: !RegexTempoAt(s, i)
    ensures FindTempo(s).Some? ==>
      && RegexTempoAt(s, FindTempo(s).value.start)
      && forall i | 0 <= i < FindTempo(s).value.start :: !RegexTempoAt(s, i)
  {
    forall i | 0 <= i <= |s|
      ensures TempoAt(s, i).Some? <==> RegexTempoAt(s, i)
    {
      TempoAtIsRegex(s, i);
    }
  }

  /** The tempo a match denotes: `parseInt` of its digits. */
  function MatchValue(s: string, m: TempoMatch): (v: nat)
    requires m.digitsStart <= m.digitsEnd <= |s| && AllDigits(s[m.digitsStart..m.digitsEnd])
    ensures m.digitsStart < m.digitsEnd ==> ParseInt(s[m.digitsStart..m.digitsEnd]) == Some(v as int)
  {
    DecimalValue(s[m.digitsStart..m.digitsEnd])
  }

  /** The leftmost match of /Q:\s*(\d+\n)/i at or after `from`: its start and end. */
  function FindTempoLineFrom(s: string, from: nat): (r: Option<(nat, nat)>)
    requires from <= |s|
    ensures r.Some? ==> from <= r.value.0 <= |s| && TempoLineAt(s, r.value.0) == Some(r.value.1)
    ensures r.Some? ==> forall i | from <= i < r.value.0 :: TempoLineAt(s, i).None?
    ensures r.None? ==> forall i | from <= i <= |s| :: TempoLineAt(s, i).None?
    decreases |s| - from
  {
    if TempoLineAt(s, from).Some? then Some((from, TempoLineAt(s, from).value))
    else if from == |s| then None
    else FindTempoLineFrom(s, from + 1)
  }

  /** `abcText.replace(/Q:\s*(\d+\n)/i, '')`: the leftmost line-feed-terminated directive is cut out. */
  function StripTempoLine(s: string): (r: string)
    ensures |r| <= |s|
    ensures r == s || |r| + 4 <= |s|
  {
    match FindTempoLineFrom(s, 0)
    case None => s
    case Some((i, end)) =>
      TempoLineAtIsRegex(s, i);
      s[..i] + s[end..]
  }

  /** Stripping changes the text exactly when the regular expression matches somewhere, and then
      removes the span of its leftmost match. */
  lemma StripTempoLineIsReplace(s: string)
    ensures StripTempoLine(s) == s <==> forall i :: !RegexTempoLineAt(s, i)
    ensures StripTempoLine(s) != s ==> exists i, end ::
      && RegexTempoLineSpan(s, i, end)
      && (forall i' | 0 <= i' < i :: !RegexTempoLineAt(s, i'))
      && StripTempoLine(s) == s[..i] + s[end..]
  {
    forall i | 0 <= i <= |s|
      ensures TempoLineAt(s, i).Some? <==> RegexTempoLineAt(s, i)
    {
      TempoLineAtIsRegex(s, i);
    }
    match FindTempoLineFrom(s, 0)
    case None =>
    case Some((i, end)) =>
      TempoLineAtIsRegex(s, i);
      assert |StripTempoLine(s)| < |s|;
  }

  // ---------------------------------------------------------------- load_abc

  datatype LoadedTempo = LoadedTempo(qpm: nat, abc: string)

  /** The tempo rule of load_abc. A selected tempo wins and leaves the text alone; otherwise the
      first directive's value is used and its line-feed-terminated form cut out; a missing or
      zero tempo falls back to the default, so the result is never zero. */
  function LoadAbcTempo(abc: string, selected: Option<nat>): (r: LoadedTempo)
    ensures r.qpm >= 1
    ensures selected.Some? ==> r.abc == abc
    ensures selected.Some? && selected.value != 0 ==> r.qpm == selected.value
    ensures selected.None? ==> r.abc == StripTempoLine(abc)
    ensures selected.None? && FindTempo(abc).None? ==> r.qpm == DefaultTempo
    ensures selected.None? && FindTempo(abc).Some? ==>
      var v := MatchValue(abc, FindTempo(abc).value);
      r.qpm == if v == 0 then DefaultTempo else v
  {
    match selected
    case Some(v) => LoadedTempo(if v == 0 then DefaultTempo else v, abc)
    case None =>
      match FindTempo(abc)
      case None => LoadedTempo(DefaultTempo, abc)
      case Some(m) =>
        var v := MatchValue(abc, m);
        LoadedTempo(if v == 0 then DefaultTempo else v, StripTempoLine(abc))
  }

  /** Where the tempo regular expression matches nowhere, neither does the line-feed form, so
      loading keeps the text and the default tempo. */
  lemma NoMatchKeepsText(abc: string)
    requires forall i :: !RegexTempoAt(abc, i)
    ensures LoadAbcTempo(abc, None) == LoadedTempo(DefaultTempo, abc)
  {
    FindTempoIsLeftmostMatch(abc);
    StripTempoLineIsReplace(abc);
    forall i | RegexTempoLineAt(abc, i)
      ensures false
    {
      LineMatchIsMatch(abc, i);
    }
  }

  /** A score whose text names no tempo loads at the default tempo, unchanged. */
  lemma NoDirectiveDefaultTempo(abc: string)
    requires forall i | 0 <= i < |abc| :: !IsQ(abc[i])
    ensures LoadAbcTempo(abc, None) == LoadedTempo(DefaultTempo, abc)
  {
  }

  /** When the scan finds nothing before `p` and a match at `p`, that is the leftmost match. */
  lemma LeftmostAt(s: string, p: nat)
    requires p <= |s| && TempoAt(s, p).Some?
    requires forall i | 0 <= i < p :: TempoAt(s, i).None?
    ensures FindTempoFrom(s, 0) == TempoAt(s, p)
  {
  }

  lemma LeftmostLineAt(s: string, p: nat)
    requires p <= |s| && TempoLineAt(s, p).Some?
    requires forall i | 0 <= i < p :: TempoLineAt(s, i).None?
    ensures FindTempoLineFrom(s, 0) == Some((p, TempoLineAt(s, p).value))
  {
  }

  /** In a text `pre + "Q:" + ds + "\n" + post` with no 'Q' in `pre`, both leftmost scans stop at
      the directive after `pre`. */
  lemma DirectiveScan(s: string, pre: string, ds: string, post: string)
    requires s == pre + "Q:" + ds + "\n" + post
    requires forall i | 0 <= i < |pre| :: !IsQ(pre[i])
    requires |ds| >= 1 && AllDigits(ds)
    ensures FindTempoFrom(s, 0) == Some(TempoMatch(|pre|, |pre| + 2, |pre| + 2 + |ds|))
    ensures FindTempoLineFrom(s, 0) == Some((|pre|, |pre| + 3 + |ds|))
  {
    var p := |pre|;
    var e := p + 2 + |ds|;
    assert s[p] == 'Q' && s[p + 1] == ':' && s[e] == '\n';
    assert s[p + 2..e] == ds;
    assert s[p + 2] == ds[0];
    SkipSpacesUnique(s, p + 2, p + 2);
    DigitsEndUnique(s, p + 2, e);
    forall i | 0 <= i < p
      ensures TempoAt(s, i).None? && TempoLineAt(s, i).None?
    {
      assert s[i] == pre[i];
    }
    LeftmostAt(s, p);
    LeftmostLineAt(s, p);
  }

  /** Stripping cuts out the leftmost line-feed-terminated match. */
  lemma StripLeftmost(s: string, p: nat, e: nat)
    requires FindTempoLineFrom(s, 0) == Some((p, e))
    ensures p <= e <= |s| && StripTempoLine(s) == s[..p] + s[e..]
  {
    TempoLineAtIsRegex(s, p);
  }

  /** With no tempo selected, the loaded tempo is the first directive's value (zero counting as
      missing) and the text is the stripped text. */
  lemma LoadWithDirective(abc: string, m: TempoMatch, stripped: string)
    requires FindTempo(abc) == Some(m) && StripTempoLine(abc) == stripped
    ensures LoadAbcTempo(abc, None).abc == stripped
    ensures LoadAbcTempo(abc, None).qpm == if MatchValue(abc, m) == 0 then DefaultTempo else MatchValue(abc, m)
  {
  }

  /** A match's value is the value of the digits it captures. */
  lemma MatchValueOf(s: string, m: TempoMatch, ds: string)
    requires m.digitsStart <= m.digitsEnd <= |s| && s[m.digitsStart..m.digitsEnd] == ds && AllDigits(ds)
    ensures MatchValue(s, m) == DecimalValue(ds)
  {
  }

  /** The pieces of a text `pre + "Q:" + ds + "\n" + post`, by position. */
  lemma DirectivePieces(s: string, pre: string, ds: string, post: string)
    requires s == pre + "Q:" + ds + "\n" + post
    ensures s[..|pre|] == pre && s[|pre| + 2..|pre| + 2 + |ds|] == ds && s[|pre| + 3 + |ds|..] == post
  {
  }

  /** When both leftmost scans stop at a directive at `p` whose digits `ds` end the line, the
      match captures `ds` and stripping cuts the directive line out. */
  lemma LeftmostDirective(s: string, p: nat, ds: string)
    requires |ds| >= 1 && AllDigits(ds) && p + 3 + |ds| <= |s| && s[p + 2..p + 2 + |ds|] == ds
    requires FindTempoFrom(s, 0) == Some(TempoMatch(p, p + 2, p + 2 + |ds|))
    requires FindTempoLineFrom(s, 0) == Some((p, p + 3 + |ds|))
    ensures FindTempo(s) == Some(TempoMatch(p, p + 2, p + 2 + |ds|))
    ensures MatchValue(s, TempoMatch(p, p + 2, p + 2 + |ds|)) == DecimalValue(ds)
    ensures StripTempoLine(s) == s[..p] + s[p + 3 + |ds|..]
  {
    StripLeftmost(s, p, p + 3 + |ds|);
    MatchValueOf(s, TempoMatch(p, p + 2, p + 2 + |ds|), ds);
  }

  /** A `Q:<digits>` line ahead of which no 'Q' appears sets the tempo and is cut out of the text. */
  lemma DirectiveSetsTempo(s: string, pre: string, ds: string, post: string)
    requires s == pre + "Q:" + ds + "\n" + post
    requires forall i | 0 <= i < |pre| :: !IsQ(pre[i])
    requires |ds| >= 1 && AllDigits(ds) && DecimalValue(ds) != 0
    ensures LoadAbcTempo(s, None) == LoadedTempo(DecimalValue(ds), pre + post)
  {
    var p := |pre|;
    var m := TempoMatch(p, p + 2, p + 2 + |ds|);
    DirectivePieces(s, pre, ds, post);
    DirectiveScan(s, pre, ds, post);
    LeftmostDirective(s, p, ds);
    LoadWithDirective(s, m, s[..p] + s[p + 3 + |ds|..]);
  }

  // ---------------------------------------------------------------- timing

  /** A JavaScript number as far as these formulas need it. */
  datatype JsNumber = Finite(value: real) | Infinity | NaN

  /** `60000 / qpm`: the milliseconds a quarter note lasts (division by zero gives Infinity). */
  function MsPerBeat(qpm: nat): (r: JsNumber)
    ensures qpm > 0 ==> r.Finite? && r.value * (qpm as real) == 60000.0
    ensures qpm == 0 ==> r == Infinity
  {
    if qpm == 0 then Infinity else Finite(60000.0 / (qpm as real))
  }

  /** `beatsPerMeasure * milliseconds per beat`: how long one measure lasts. */
  function MsPerMeasure(qpm: nat, beatsPerMeasure: nat): (r: JsNumber)
    ensures qpm > 0 ==> r.Finite? && r.value * (qpm as real) == 60000.0 * (beatsPerMeasure as real)
    ensures qpm == 0 ==> (r == NaN <==> beatsPerMeasure == 0) && (r == Infinity <==> beatsPerMeasure > 0)
  {
    match MsPerBeat(qpm)
    case Finite(ms) => Finite(beatsPerMeasure as real * ms)
    case _ => if beatsPerMeasure == 0 then NaN else Infinity
  }

  /** On the page the loaded tempo is never 0, so a beat and a measure of the loaded tempo have
      a finite length; the Infinity case arises only in the component, where "Q:0" keeps 0. */
  lemma PageTimingFinite(abc: string, selected: Option<nat>, beatsPerMeasure: nat)
    ensures MsPerBeat(LoadAbcTempo(abc, selected).qpm).Finite?
    ensures MsPerMeasure(LoadAbcTempo(abc, selected).qpm, beatsPerMeasure).Finite?
  {
  }

  /** Doubling the tempo halves every duration: durations scale inversely with the tempo. */
  lemma MeasureScalesInversely(qpm: nat, k: nat, beatsPerMeasure: nat)
    requires qpm > 0 && k > 0
    ensures MsPerMeasure(qpm * k, beatsPerMeasure).value * (k as real) == MsPerMeasure(qpm, beatsPerMeasure).value
  {
    var a := MsPerMeasure(qpm * k, beatsPerMeasure).value;
    var b := MsPerMeasure(qpm, beatsPerMeasure).value;
    assert a * ((qpm * k) as real) == b * (qpm as real);
    assert (a * (k as real)) * (qpm as real) == b * (qpm as real);
  }
}

=== FILE: text.dfy ===
/**
 The string primitives the sight-reader leans on, with JavaScript's meaning:
 `String.prototype.trim`, `split('\n')`, `join('\n')`, the `\s` and `\d` regex
 classes, `parseInt` of a digit run and the decimal text of an integer.
 */
module Text {
  import opened Wrappers

  /** JavaScript white space and line terminators: what `trim` removes and `\s` matches. */
  predicate IsSpace(c: char) {
    || c == '\t' || c == '\n' || c == '\U{B}' || c == '\U{C}' || c == '\r' || c == ' '
    || c == '\U{A0}' || c == '\U{1680}' || ('\U{2000}' <= c <= '\U{200A}')
    || c == '\U{2028}' || c == '\U{2029}' || c == '\U{202F}' || c == '\U{205F}'
    || c == '\U{3000}' || c == '\U{FEFF}'
  }

  /** The regex class `\d`: ASCII digits only. */
  predicate IsDigit(c: char) {
    '0' <= c <= '9'
  }

  /** The regex class `[A-Za-z]`. */
  predicate IsAsciiLetter(c: char) {
    'A' <= c <= 'Z' || 'a' <= c <= 'z'
  }

  /** `toUpperCase` restricted to ASCII letters. */
  function ToUpperAscii(c: char): char
    requires IsAsciiLetter(c)
  {
    if 'a' <= c <= 'z' then (c as int - 32) as char else c
  }

  predicate AllDigits(s: string) {
    forall i | 0 <= i < |s| :: IsDigit(s[i])
  }

  predicate AllSpaces(s: string) {
    forall i | 0 <= i < |s| :: IsSpace(s[i])
  }

  // ---------------------------------------------------------------- trim

  /** Neither end of `s` is white space. */
  predicate Trimmed(s: string) {
    |s| == 0 || (!IsSpace(s[0]) && !IsSpace(s[|s| - 1]))
  }

  /** The index of the first non-space character at or after `i` (or `|s|`). */
  function SkipSpaces(s: string, i: nat): (k: nat)
    requires i <= |s|
    ensures i <= k <= |s|
    ensures forall m | i <= m < k :: IsSpace(s[m])
    ensures AllSpaces(s[i..k])
    ensures k == |s| || !IsSpace(s[k])
    decreases |s| - i
  {
    if i < |s| && IsSpace(s[i]) then SkipSpaces(s, i + 1) else i
  }

  /** The index just past the last non-space character before `j`, not going below `lo`. */
  function SkipSpacesBack(s: string, lo: nat, j: nat): (e: nat)
    requires lo <= j <= |s|
    ensures lo <= e <= j
    ensures forall m | e <= m < j :: IsSpace(s[m])
    ensures e == lo || !IsSpace(s[e - 1])
    decreases j
  {
    if lo < j && IsSpace(s[j - 1]) then SkipSpacesBack(s, lo, j - 1) else j
  }

  /** `String.prototype.trim`: the slice of `s` left after removing white space at both ends. */
  function Trim(s: string): (r: string)
    ensures Trimmed(r)
    ensures forall c | c in r :: c in s
    ensures exists i, j :: 0 <= i <= j <= |s| && r == s[i..j] && AllSpaces(s[..i]) && AllSpaces(s[j..])
  {
    var i := SkipSpaces(s, 0);
    var j := SkipSpacesBack(s, i, |s|);
    assert AllSpaces(s[..i]) && AllSpaces(s[j..]);
    s[i..j]
  }

  /** Trimming text that is already trimmed changes nothing. */
  lemma TrimOfTrimmed(s: string)
    requires Trimmed(s)
    ensures Trim(s) == s
  {
  }

  // ---------------------------------------------------------------- split and join

  /** `xs.join(sep)`. */
  function Join(xs: seq<string>, sep: char): string
  {
    if |xs| == 0 then ""
    else if |xs| == 1 then xs[0]
    else xs[0] + [sep] + Join(xs[1..], sep)
  }

  /** `s.split(sep)` for a one-character separator: the pieces between separators,
      at least one piece and none holding the separator. */
  function Split(s: string, sep: char): (r: seq<string>)
    ensures |r| >= 1
    ensures forall i | 0 <= i < |r| :: sep !in r[i]
  {
    if |s| == 0 then [""]
    else
      var rest := Split(s[1..], sep);
      if s[0] == sep then [""] + rest
      else [[s[0]] + rest[0]] + rest[1..]
  }

  /** Joining the pieces of a split gives the string back. */
  lemma {:induction false} JoinSplit(s: string, sep: char)
    ensures Join(Split(s, sep), sep) == s
  {
    if |s| > 0 {
      var rest := Split(s[1..], sep);
      JoinSplit(s[1..], sep);
      if s[0] == sep {
        assert ([""] + rest)[1..] == rest;
      } else {
        var r := [[s[0]] + rest[0]] + rest[1..];
        if |rest| > 1 {
          assert r[1..] == rest[1..];
        }
      }
    }
  }

  /** Splitting a separator-free string gives the string itself as the one piece. */
  lemma {:induction false} SplitNoSeparator(s: string, sep: char)
    requires sep !in s
    ensures Split(s, sep) == [s]
  {
    if |s| > 0 {
      SplitNoSeparator(s[1..], sep);
      assert [s[0]] + s[1..] == s;
    }
  }

  /** The first separator ends the first piece. */
  lemma {:induction false} SplitAtSeparator(x: string, sep: char, t: string)
    requires sep !in x
    ensures Split(x + [sep] + t, sep) == [x] + Split(t, sep)
  {
    if |x| == 0 {
      assert (x + [sep] + t)[1..] == t;
    } else {
      assert (x + [sep] + t)[1..] == x[1..] + [sep] + t;
      SplitAtSeparator(x[1..], sep, t);
      assert [x[0]] + x[1..] == x;
    }
  }

  /** Join and Split are inverse on a non-empty list of separator-free pieces. */
  lemma {:induction false} SplitJoin(xs: seq<string>, sep: char)
    requires |xs| >= 1
    requires forall i | 0 <= i < |xs| :: sep !in xs[i]
    ensures Split(Join(xs, sep), sep) == xs
  {
    if |xs| == 1 {
      SplitNoSeparator(xs[0], sep);
    } else {
      SplitJoin(xs[1..], sep);
      SplitAtSeparator(xs[0], sep, Join(xs[1..], sep));
    }
  }

  /** Joining two non-empty lists puts one separator between their joins. */
  lemma {:induction false} JoinAppend(a: seq<string>, b: seq<string>, sep: char)
    requires |a| >= 1 && |b| >= 1
    ensures Join(a + b, sep) == Join(a, sep) + [sep] + Join(b, sep)
  {
    if |a| > 1 {
      assert (a + b)[1..] == a[1..] + b;
      JoinAppend(a[1..], b, sep);
    } else {
      assert (a + b)[1..] == b;
    }
  }

  // ---------------------------------------------------------------- decimals

  function DigitValue(c: char): nat
    requires IsDigit(c)
  {
    c as int - '0' as int
  }

  function DigitChar(d: nat): (c: char)
    requires d < 10
    ensures IsDigit(c) && DigitValue(c) == d
  {
    ('0' as int + d) as char
  }

  /** `parseInt` of a run of decimal digits (leading zeros allowed, as in "0090"). */
  function DecimalValue(ds: string): nat
    requires AllDigits(ds)
  {
    if |ds| == 0 then 0 else DecimalValue(ds[..|ds| - 1]) * 10 + DigitValue(ds[|ds| - 1])
  }

  /** The decimal text JavaScript prints for a non-negative integer: digits without
      leading zeros, which `parseInt` reads back as the same number. */
  function NatToDecimal(n: nat): (r: string)
    ensures |r| >= 1 && AllDigits(r)
    ensures r[0] == '0' ==> r == "0"
    ensures DecimalValue(r) == n
  {
    if n < 10 then [DigitChar(n)]
    else
      var r := NatToDecimal(n / 10) + [DigitChar(n % 10)];
      assert r[..|r| - 1] == NatToDecimal(n / 10);
      r
  }

  /** The decimal text of an integer, with a leading '-' when it is negative. */
  function IntToDecimal(i: int): (r: string)
    ensures |r| >= 1
    ensures r[0] == '-' || IsDigit(r[0])
  {
    if i < 0 then "-" + NatToDecimal(-i) else NatToDecimal(i)
  }

  /** Reads an optional '-' followed by a non-empty run of digits; anything else is None. */
  function ParseInt(s: string): Option<int>
  {
    if |s| >= 2 && s[0] == '-' && AllDigits(s[1..]) then Some(-(DecimalValue(s[1..]) as int))
    else if |s| >= 1 && AllDigits(s) then Some(DecimalValue(s))
    else None
  }

  /** Printing an integer and reading it back gives the integer. */
  lemma IntToDecimalRoundTrip(i: int)
    ensures ParseInt(IntToDecimal(i)) == Some(i)
  {
    if i < 0 {
      var r := IntToDecimal(i);
      assert r[1..] == NatToDecimal(-i);
    }
  }
}

=== FILE: wrappers.dfy ===
/** The optional value used wherever the JavaScript code has `null`/`undefined` or a failed parse. */
module Wrappers {

  datatype Option<+T> = None | Some(value: T) {

    /** The wrapped value, or `default` when there is none. */
    function GetOr(default: T): T {
      match this
      case Some(v) => v
      case None => default
    }
  }
}
